=== FILE: README.md ===
# mycobra command tree, flag stripper and flag scopes in Dafny

This project models the core of `mycobra`, a small Go command-line framework in
the style of cobra. It has three parts:

- **The flag stripper** (`stripFlags` and its two helpers). It makes one pass over
  the raw arguments and keeps the positional tokens. It drops flags, and it drops
  the value token after a flag that takes one. It knows flag syntax and which flags
  are boolean-like, but not flag values.
- **The command tree.** It covers `Name`, `AddCommand`, `CommandPath`, `UseLine`,
  `UsageTemplate`, the availability queries and `findSubcmd`. On top of these sits
  the resolver `innerFind`/`Find`. The resolver walks the tree one level at a time
  and strips flags at each level with that level's merged flags.
- **Flag scopes.** Each command has a local set (`lflags`), a global set (`gflags`)
  and a merged set (`flags`). The global set is shared by the whole tree:
  `getFaGflags` and `getGflags` make every node on a parent chain hold the root's
  global set. `Flags` folds the local and global flags into the merged set by name.

The Go program mutates commands that point at each other. The model replaces the
pointers with an arena:

- A `Tree` maps node ids to `Command` values, and `parent`/`commands` hold ids.
- A `FlagState` maps node ids to their three set handles and set ids to pflag sets.
- Every operation that mutates in Go takes a state and returns the new one. `UseLine` is the exception: it is pure here, and its flag-dependent part is an argument (see "## Left out").
- A handle shared by two nodes (the global set) is modelled as one set id held by both.
- A string is a sequence of `char`s, one per byte of the Go string, so lengths and indexes are Go's. A non-ASCII character is its UTF-8 bytes: `-é` has length three, so the scan drops it alone, as `len(s) == 2` in cobra.go:57 does.

The modules follow the source:

| module | file | models |
|---|---|---|
| `Wrappers` | wrappers.dfy | `Option`, `Result` |
| `Text` | text.dfy | the `strings` functions used: prefix, `Contains`, joining |
| `FlagSets` | flagsets.dfy | the slice of pflag's `FlagSet` the core relies on |
| `Tokenizer` | tokenizer.dfy | cobra.go: `hasNoOptDefVal`, `shortHasNoOptDefVal`, `stripFlags` |
| `Commands` | commands.dfy | command.go: the tree, names, paths, usage, availability, `findSubcmd`, `AddCommand`, `Root` |
| `FlagScope` | flagscope.dfy | command.go: `getFaGflags`, `getGflags`, `LocalFlags`, `Flags` |
| `Resolve` | resolve.dfy | command.go: `innerFind`, `Find` |

Behaviour of the code worth knowing. The model follows the code in each case:

- A `--` that is consumed as the value of a value-taking flag does not end the scan.
  For example, `-a -- x`, where `-a` takes a value, keeps `x`. The comment at
  cobra.go:51 says `--` terminates the flags. That holds only for a `--` the scan
  reaches as a token of its own (`Tokenizer.TerminatorEndsScan` versus
  `Tokenizer.TerminatorAsValue`).
- The resolver matches a child against the unstripped list. So a flag written
  between a command and its subcommand's name makes resolution fail at the
  subcommand (`Resolve.FlagBeforeSubcommandExample`).
- `Find` compares `err` with a freshly made `errors.New("Help")`. That comparison is
  always false, so `Find` returns `innerFind`'s result unchanged. The help outcome
  carries no residual arguments either way.
- A root's merged set contains no global flags until something has called
  `getGflags` in its tree, because `Flags` adds a nil global set as nothing.

## Model

| member | source | states |
|---|---|---|
| Tokenizer.HasNoOptDefVal | cobra.go:16-22 | true exactly when a flag of that long name is defined and its no-option default is non-empty |
| Tokenizer.ShortHasNoOptDefVal | cobra.go:25-35 | false for an empty name; otherwise true exactly when the flag whose shorthand is the name's first character is defined and has a non-empty no-option default |
| Tokenizer.LongValueFlag | cobra.go:53 | a token is a long value-taking flag exactly when it starts with `--`, has no `=`, and the name after `--` is undefined or has an empty no-option default |
| Tokenizer.ShortValueFlag | cobra.go:57 | a token is a short value-taking flag exactly when it is `-` and one byte other than `=`, and that shorthand is undefined or has an empty no-option default |
| Tokenizer.StripFlags | cobra.go:38-72 | an empty list gives an empty list, and the result is never longer than the input |
| Tokenizer.StripFlagsKeepsPositionals | cobra.go:43-71 | every token returned is positional (non-empty and not starting with `-`), and the tokens keep their order in the input: the result is a subsequence of the arguments |
| Tokenizer.BreakIsSkipNext | cobra.go:53-65 | the `len(args) <= 1` break after a value-taking flag behaves the same as skipping the next token, if there is one, and scanning on |
| Tokenizer.ValueFlagSwallowsNext | cobra.go:53-65 | a value-taking flag removes the token after it whatever that token looks like, and a value-taking flag as the last token ends the scan with nothing added |
| Tokenizer.UnknownFlagSwallowsNext | cobra.go:53-57 | an undefined `--name` or `-x` without `=` is treated as taking a value: the next token is dropped with it |
| Tokenizer.SelfContainedFlagDropped | cobra.go:53-68 | a flag written with `=`, a single-dash token that is not exactly two characters long, or a boolean-like flag is dropped alone, and the scan goes on with the next token |
| Tokenizer.PositionalKept | cobra.go:66-67 | a positional token is kept in front of whatever the rest of the scan yields |
| Tokenizer.NonValueStep | cobra.go:66-68 | a token that is not `--` and not a value-taking flag is kept if positional, dropped otherwise, and the scan continues after it |
| Tokenizer.LoneShortFlagDropped | cobra.go:57-65 | a lone `-x` at the end of the list yields nothing, whether or not `x` takes a value |
| Tokenizer.StripFlagsAppend | cobra.go:45-69 | when the scan of a prefix ends exactly at its end, scanning the prefix and the rest separately and concatenating gives the same positionals as one scan |
| Tokenizer.TerminatorEndsScan | cobra.go:50-52 | a `--` reached by the scan ends it: nothing after it is ever returned |
| Tokenizer.TerminatorAsValue | cobra.go:53-65 | `--` taken as the value of `-a` does not end the scan: `-a -- x` gives `x` |
| Tokenizer.StripFlagsExample | cobra_test.go:8-27 | with flags `a`, `b`, `c` taking values, `-a -b1 -c=1 test1 test2 test3` gives `test1 test2 test3` |
| FlagSets.AddFlag | command_test.go:26-28 | defining a flag succeeds exactly when its name is new, its shorthand has at most one character and that character is unused; on success the flag is found by name and shorthand, every earlier name and shorthand keeps its flag, and the only shorthand gained is the flag's own (none for an empty shorthand) |
| FlagSets.AddFlagSet | command.go:189-190 | the names are the union of both sets; an entry already present is never replaced; a new name brings the source's flag; the shorthands are the destination's, each kept, plus those of the added flags that are still free, each bound to the source's flag; adding a set whose names are all present changes nothing |
| Commands.Name | command.go:103-110 | the name is a prefix of the use line, contains no space, and ends at the end of the line or at its first space |
| Commands.NameOfWord | command.go:103-110 | a use line without a space is its own name |
| Commands.Chain | command.go:136-139 | the chain starts at the node, each entry's parent is the next entry, and it ends at a node without a parent |
| Commands.RootwardNames | command.go:331-336 | the names of the nodes of a chain, read from its far end: position `i` holds the name of the `i`-th node counted from the end |
| Commands.CommandPath | command.go:331-336 | the path starts with the root's name and ends with the node's own name |
| Commands.CommandPathJoinsNames | command.go:331-336 | the command path is the names from the root down to the node joined by single spaces |
| Commands.CommandPathExample | command_test.go:89-97 | `test2` attached under `test1` has the path `test1 test2` |
| Commands.UseLine | command.go:339-351 | the line starts with the parent's path and the node's use line (the use line alone at a root); it mentions `[flags]` exactly when flags exist or the line already did; ` [flags]` is appended exactly when flags exist and the line does not mention `[flags]` yet, otherwise the line is left as it is |
| Commands.UsageTemplate | command.go:354-361 | a custom template in force is non-empty and is the template of some node on the way from the node to its root |
| Commands.UsageTemplateInherited | command.go:354-361 | the template in force is the first non-empty one on the way from the node to its root; the built-in one is used exactly when every node on that way has none |
| Commands.IsAvailableCommand | command.go:261-266 | a command is available exactly when it is runnable or one of its listed children is available |
| Commands.HasAvailableSubCommands | command.go:269-276 | true exactly when one of the listed children is available |
| Commands.AnyAvailableFrom | command.go:270-275 | the loop of `HasAvailableSubCommands` from child `i` on is true exactly when some child at `i` or later is available |
| Commands.AvailableHasRunnableBelow | command.go:261-276 | an available command has a runnable command at or below it |
| Commands.RunnableBelowIsAvailable | command.go:261-276 | a runnable command at or below a command makes it available |
| Commands.AvailableIffRunnableBelow | command.go:256-276 | a command is available exactly when some command in its subtree is runnable |
| Commands.FirstNamedFrom | command.go:246-252 | the index found, if any, is the first child from `i` on with the wanted name; no child checked before it has that name |
| Commands.FindSubcmd | command.go:245-253 | the child returned is a listed child with the wanted name and no earlier child has it; none is returned exactly when no child has that name |
| Commands.Attach | command.go:201-202 | one step of `AddCommand`: the new child gets the parent, the parent's list grows by that child, no other node changes |
| Commands.AddCommand | command.go:196-204 | it panics exactly when the command is among its own arguments; the arguments before the first such occurrence get it as parent and are appended in order (repeats included); nothing else changes |
| Commands.AttachAncestorUnroots | command.go:197-201 | attaching one of the receiver's ancestors, which the receiver-only check lets through, leaves the receiver and that ancestor without a finite parent chain |
| Commands.ParentCycleExample | command.go:196-204 | `b.AddCommand(a)` then `a.AddCommand(b)` leaves neither `a` nor `b` with a root |
| Commands.AttachKeepsRooted | command.go:200-202 | attaching a node that is not on the receiver's parent chain keeps every node that had a root rooted |
| Commands.AddCommandGuarded | command.go:196-204 | the loop with the check widened to the receiver's whole parent chain: it panics exactly when an argument lies on that chain, attaches the arguments before it as `AddCommand` does, and keeps every node of a forest rooted |
| Commands.RootLoop | command.go:123-129 | the loop as written, if it ends, returns the node itself or its parent, and that node has no parent |
| Commands.RootLoopDiverges | command.go:123-129 | for a command whose parent has a parent, the loop as written does not end within any number of iterations |
| Commands.RootLoopShallow | command.go:123-129 | at a root or one level below it, the loop as written returns the intended root |
| Commands.Root | command.go:122-129 | following parents ends at a node of the tree without a parent |
| Commands.RootIsTop | command.go:122-129 | the intended root is the last node on the command's parent chain |
| FlagScope.GetFaGflags | command.go:43-50 | a root changes nothing; any other node, and every node above it, ends up holding one global set: the root's, or a new one made for the root; nothing else changes |
| FlagScope.GetGflags | command.go:147-159 | the set returned is held as global set by every node from the node up to its root; it is the root's existing set if there was one, else a new empty one; nothing else changes |
| FlagScope.FaKeeps | command.go:43-50 | `getFaGflags` keeps every local and merged handle, the contents of every existing set, and the sharing invariants |
| FlagScope.GetGflagsIdempotent | command.go:147-159 | a second `getGflags` on the same node changes nothing and returns the same set |
| FlagScope.GetGflagsFixpoint | command.go:147-159 | once every node on the chain holds the same global set, `getGflags` returns it and changes nothing |
| FlagScope.GetFaGflagsFixpoint | command.go:43-50 | once the chain holds one global set, `getFaGflags` changes nothing |
| FlagScope.GlobalSetShared | command.go:147-159 | two nodes of one tree get the same global set: whichever asks first creates it, the other finds it |
| FlagScope.Register | command_test.go:44 | registering succeeds exactly when pflag accepts the flag; the target set then becomes pflag's result of adding the flag, so its earlier flags and shorthands stay and the flag's name is defined; no other set or handle changes |
| FlagScope.GlobalFlagVisibleEverywhere | command_test.go:42-53 | a global flag registered through one node is seen in the global set read through any other node of the same tree, ancestors included |
| FlagScope.NewSet | command.go:166 | `flag.NewFlagSet`: the set gets an id no existing set has, is empty, and nothing else changes |
| FlagScope.LocalFlags | command.go:162-174 | the node's local set is made on first use as a new empty set and returned unchanged afterwards; existing sets keep their contents; its merged handle is kept; as `getFaGflags` leaves them, nodes off the parent chain keep their scopes and the chain holds one global set, the root's if it had one, else a new empty one |
| FlagScope.LocalFlagStaysLocal | command.go:162-174 | registering a flag in a node's local set changes no set held by any other node, nor the node's own global or merged set |
| FlagScope.AddOptional | command.go:189-190 | adding a possibly nil set is pflag's `AddFlagSet` with the set, or with an empty set for nil: its names are added, entries are never replaced, and nil adds nothing |
| FlagScope.MergedEntries | command.go:189-190 | merging the local set and then the global set keeps every entry and shorthand already there; a new name brings the local flag if the local set defines it, else the global one; free shorthands of added flags are bound to those flags, and no other shorthand is added |
| FlagScope.MergeInto | command.go:181-192 | the merged set is made on first use; afterwards its names are its earlier names plus the local and global names; earlier entries are kept; the set is the earlier merged set (empty if new) with the local set and then the global set added, as `AddFlagSet` adds them, records and shorthands included; no other set or node changes |
| FlagScope.Flags | command.go:177-193 | the merged set is made once and then reused; its names are its earlier names plus the node's local and global names; earlier entries are never replaced; the set is the earlier merged set (empty if new) with the local set and then the global set added, records and shorthands included; the local handle is kept; as `getFaGflags` leaves them, nodes off the parent chain keep their scopes and a non-root node's whole chain holds one global set, the root's if it had one, else a new empty one |
| FlagScope.MergedKeepsLocalFlag | command.go:189-190 | after the first `Flags` on a node, each name of its local set is bound in the merged set to the local flag, so the scan sees it as boolean-like exactly when the local flag is |
| FlagScope.FlagsIdempotent | command.go:177-193 | a second `Flags` with nothing registered in between returns the same set and state |
| FlagScope.MergedSeesLocalAndTreeGlobals | command_test.go:72-86 | after `Flags` on a non-root node, its merged set has every flag name of its own local set and of its tree's global set |
| Resolve.Strip | cobra.go:38-71 | an empty list is returned as is without touching the flags; otherwise the state is the one `Flags` leaves and the positionals are what the scan yields with the node's merged set, a subsequence of the arguments |
| Resolve.StripAgain | cobra.go:38-44 | stripping the same list again at the same node, with nothing registered in between, gives the same result and state |
| Resolve.InnerFind | command.go:207-230 | the outcome names a node of the tree, and the residual of a successful resolution has no positional tokens at the node it resolves to |
| Resolve.InnerFindStep | command.go:207-230 | a name mismatch fails at the node and leaves the flag state alone; otherwise the state is the one stripping at the node leaves (its `Flags` work), and `help` as the first positional asks for help there, no positionals resolves there with everything after the name, and otherwise the named child continues from that state with everything after the name, or resolution fails if there is none |
| Resolve.ResolutionTrail | command.go:207-230 | resolution follows a downward path whose nodes before the last were named by the arguments at their positions; success leaves the arguments after those names; help and failure are explained by a name mismatch at the last node or a later positional (`help`, or a name no child has) |
| Resolve.Find | command.go:233-242 | a list that does not start with the root's name fails at the root with nothing changed; otherwise as `innerFind` |
| Resolve.FindSubcommandExample | command.go:207-230 | `test1 test2 -x` resolves to `test2` with `-x` left over |
| Resolve.FindMissingExample | command.go:224-227 | `test1 other` fails at `test1` |
| Resolve.FindHelpExample | command.go:214-216 | `test1 test2 help` asks for help at `test2` |
| Resolve.FlagBeforeSubcommandExample | command.go:212-229 | `test1 --v=1 test2` fails at `test2`: the flag is stripped to choose the child but the child is matched against the unstripped list |

## Left out

- `Execute`, `ExecuteC`, `execute` and `ParseFlags` are left out. They parse flag values through pflag and call the user's `Run`, and flag values are not modelled.
- `Usage`, `UsageFunc` and `tmpl` are left out: they render a text template to standard output. The default template is the constant `Builtin`.
- `HasAvailableFlags`, `HasAvailableGlobalFlags` and `HasAvailableLocalFlags` ask pflag whether a set has non-hidden flags. Hidden flags are not modelled, so `UseLine` takes that answer as its `hasFlags` argument.
- `GetLong`, `GetShort`, `Commands`, `Parent`, `setGflags`, `HasSubCommands` and `HasParent` are field accessors. The model reads the fields directly, and the `Short`, `Long` and `Example` fields are not modelled.
- `Runnable` is the `runnable` field of a command, standing for `Run != nil`.
- `flagErrorBuf`, `SetOutput`, the set names and `ContinueOnError` are left out: they only direct pflag's error output.
- FlagSets.AddFlagSet: does not model pflag's panic when an added flag's shorthand is already bound to another flag of the destination. The model keeps the existing binding.
- Resolve.Find: requires a non-empty argument list, because the source indexes `args[0]` and panics on an empty one.
- Commands.AddCommand: nil entries among the arguments are not modelled (the source dereferences them and panics). Nodes are ids of the tree.
- FlagScope.Register: only defines a flag (`StringP` and the like), without its value or usage text.
- Commands.UseLine: in Go, `HasAvailableFlags` runs `getFaGflags` and `Flags` (command.go:289-292), so building the use line converges the global sets and creates the merged set. The model's `UseLine` is pure and takes the answer as `hasFlags`; the state change is that of `Flags`.
- Commands.IsAvailableCommand: requires `TreeShaped`, which asks every listed child to name its lister as parent. `AddCommand` (command.go:201-202, and `Attach` here) breaks that when a command is added under a second parent, since the old parent still lists it. Without some such condition the children lists can form a cycle while every parent chain stays acyclic: after `c.AddCommand(a)`, `a.AddCommand(b)`, `b.AddCommand(a)` and `d.AddCommand(a)`, `a` lists `b` and `b` lists `a`. When neither is runnable, `IsAvailableCommand` (command.go:261-276) then recurses forever. Availability on re-attached trees is not modelled.
- Parent cycles: the source can build one (see "## Findings"). Every operation on ancestors (`getFaGflags`, `getGflags`, `CommandPath`, `UsageTemplate`, `Find` through `Flags`) recurses forever on such a node in Go; the model requires the node's parent chain to reach a root within the size of the tree, which `AddCommandGuarded` keeps.
- Sets are shared only through the global role. The sharing invariant `Private` holds for states built by these operations. A state where `setGflags` was handed a node's local or merged set is not modelled.

## Findings

| source | as written | input that shows it | evidently intended | confidence | as-written member | corrected member |
|---|---|---|---|---|---|---|
| command.go:123-129 | the loop tests `pa.parent` but assigns `pa = c.parent` each time | a command `c` whose parent `p` has a parent: the loop keeps testing `p` and never ends | `pa = pa.parent`: follow parents until a node has none | high, not executed | Commands.RootLoop, Commands.RootLoopDiverges | Commands.Root, Commands.RootIsTop |
| command.go:197-199 | only an argument equal to the receiver panics | `b.AddCommand(a)` then `a.AddCommand(b)`: now `a.parent == b` and `b.parent == a`, and every walk up the parents from either never ends | reject every command on the receiver's parent chain, so parents stay a forest | medium, not executed | Commands.AttachAncestorUnroots, Commands.ParentCycleExample | Commands.AddCommandGuarded, Commands.AttachKeepsRooted |

=== FILE: commands.dfy ===
/** The command tree of command.go as an arena: nodes addressed by id, each
    holding its usage line, whether it has a `Run` handler, its own usage
    template, its parent and its children in insertion order. */
module Commands {
  import opened Wrappers
  import opened Text

  type NodeId = nat

  /** A usage template: the node's own text, or the built-in default. */
  datatype Template = Custom(text: string) | Builtin

  datatype Command = Command(
    use: string,
    runnable: bool,
    usageTemplate: string,
    parent: Option<NodeId>,
    commands: seq<NodeId>)

  type Tree = map<NodeId, Command>

  /** `Name`: the usage line up to its first space. */
  function Name(use: string): (r: string)
    ensures HasPrefix(use, r)
    ensures ' ' !in r
    ensures |r| == |use| || use[|r|] == ' '
  {
    if |use| == 0 || use[0] == ' ' then ""
    else [use[0]] + Name(use[1..])
  }

  /** The ids from `id` up to its root, following parents for at most
      `fuel` steps; `None` when a parent is missing or the fuel runs out. */
  function Ancestry(tree: Tree, id: NodeId, fuel: nat): Option<seq<NodeId>>
    decreases fuel
  {
    if fuel == 0 || id !in tree then None
    else
      match tree[id].parent
      case None => Some([id])
      case Some(p) =>
        match Ancestry(tree, p, fuel - 1)
        case None => None
        case Some(c) => Some([id] + c)
  }

  lemma {:induction false} AncestryShape(tree: Tree, id: NodeId, fuel: nat)
    requires Ancestry(tree, id, fuel).Some?
    ensures var c := Ancestry(tree, id, fuel).value;
      && 1 <= |c| <= fuel
      && c[0] == id
      && (forall i :: 0 <= i < |c| ==> c[i] in tree)
      && (forall i :: 0 <= i < |c| - 1 ==> tree[c[i]].parent == Some(c[i + 1]))
      && tree[c[|c| - 1]].parent.None?
    decreases fuel
  {
    if tree[id].parent.Some? {
      AncestryShape(tree, tree[id].parent.value, fuel - 1);
    }
  }

  lemma {:induction false} AncestryMore(tree: Tree, id: NodeId, fuel: nat, more: nat)
    requires Ancestry(tree, id, fuel).Some? && fuel <= more
    ensures Ancestry(tree, id, more) == Ancestry(tree, id, fuel)
    decreases fuel
  {
    if tree[id].parent.Some? {
      AncestryMore(tree, tree[id].parent.value, fuel - 1, more - 1);
    }
  }

  /** The parent chain of `id` reaches a root: no cycle, no missing parent. */
  predicate Rooted(tree: Tree, id: NodeId) {
    Ancestry(tree, id, |tree|).Some?
  }

  /** `id`, its parent, its grandparent, ..., its root. */
  function Chain(tree: Tree, id: NodeId): (c: seq<NodeId>)
    requires Rooted(tree, id)
    ensures 1 <= |c| <= |tree| && c[0] == id
    ensures forall i :: 0 <= i < |c| ==> c[i] in tree
    ensures forall i :: 0 <= i < |c| - 1 ==> tree[c[i]].parent == Some(c[i + 1])
    ensures tree[c[|c| - 1]].parent.None?
  {
    AncestryShape(tree, id, |tree|);
    Ancestry(tree, id, |tree|).value
  }

  /** A rooted node's parent is rooted, one step shorter. */
  lemma ParentChain(tree: Tree, id: NodeId)
    requires Rooted(tree, id) && tree[id].parent.Some?
    ensures Rooted(tree, tree[id].parent.value)
    ensures Chain(tree, id) == [id] + Chain(tree, tree[id].parent.value)
  {
    var p := tree[id].parent.value;
    AncestryMore(tree, p, |tree| - 1, |tree|);
  }

  lemma {:induction false} AncestrySuffix(tree: Tree, id: NodeId, fuel: nat, k: nat)
    requires Ancestry(tree, id, fuel).Some?
    requires k < |Ancestry(tree, id, fuel).value|
    ensures var c := Ancestry(tree, id, fuel).value;
      k <= fuel && Ancestry(tree, c[k], fuel - k) == Some(c[k..])
    decreases k
  {
    AncestryShape(tree, id, fuel);
    if k > 0 {
      var p := tree[id].parent.value;
      AncestrySuffix(tree, p, fuel - 1, k - 1);
      var c := Ancestry(tree, id, fuel).value;
      assert c[1..][k - 1..] == c[k..];
    }
  }

  /** A node does not reappear above itself on its own parent chain. */
  lemma ChainDistinct(tree: Tree, id: NodeId)
    requires Rooted(tree, id)
    ensures id !in Chain(tree, id)[1..]
  {
    var c := Chain(tree, id);
    if id in c[1..] {
      var k :| 1 <= k < |c| && c[k] == id;
      AncestrySuffix(tree, id, |tree|, k);
      AncestryMore(tree, id, |tree| - k, |tree|);
      assert false;
    }
  }

  /** The root of a rooted node's tree. */
  function Top(tree: Tree, id: NodeId): (t: NodeId)
    requires Rooted(tree, id)
    ensures t in tree && tree[t].parent.None?
  {
    var c := Chain(tree, id);
    c[|c| - 1]
  }

  /** `Root` as written: the loop tests the current node's parent but steps
      to `c`'s parent every time. `pa` is the current node, always `c` or
      its parent; `fuel` bounds the iterations, and `None` means the loop
      has not ended within them. */
  function RootLoop(tree: Tree, c: NodeId, pa: NodeId, fuel: nat): (r: Option<NodeId>)
    requires c in tree && pa in tree && (pa == c || tree[c].parent == Some(pa))
    requires tree[c].parent.Some? ==> tree[c].parent.value in tree
    decreases fuel
    ensures r.Some? ==> r.value in tree && tree[r.value].parent.None?
    ensures r.Some? ==> r.value == c || tree[c].parent == r
  {
    if tree[pa].parent.None? then Some(pa)
    else if fuel == 0 then None
    else RootLoop(tree, c, tree[c].parent.value, fuel - 1)
  }

  /** Two or more levels below a root, the loop never ends: it keeps
      testing the parent, which has a parent of its own. */
  lemma {:induction false} RootLoopDiverges(tree: Tree, c: NodeId, p: NodeId, fuel: nat)
    requires c in tree && p in tree && tree[c].parent == Some(p) && tree[p].parent.Some?
    ensures RootLoop(tree, c, c, fuel) == None
    ensures RootLoop(tree, c, p, fuel) == None
    decreases fuel
  {
    if fuel > 0 {
      RootLoopDiverges(tree, c, p, fuel - 1);
    }
  }

  /** `Root` as intended: follow parents until a node has none. */
  function Root(tree: Tree, id: NodeId): (r: NodeId)
    requires Rooted(tree, id)
    decreases |Chain(tree, id)|
    ensures r in tree && tree[r].parent.None?
  {
    match tree[id].parent
    case None => id
    case Some(p) =>
      ParentChain(tree, id);
      Root(tree, p)
  }

  /** The intended root is the far end of the node's chain of parents. */
  lemma {:induction false} RootIsTop(tree: Tree, id: NodeId)
    requires Rooted(tree, id)
    ensures Root(tree, id) == Top(tree, id) && Root(tree, id) in Chain(tree, id)
    decreases |Chain(tree, id)|
  {
    match tree[id].parent
    case None =>
      assert |Chain(tree, id)| == 1;
    case Some(p) =>
      ParentChain(tree, id);
      RootIsTop(tree, p);
      var c := Chain(tree, id);
      assert c[|c| - 1] == Chain(tree, p)[|Chain(tree, p)| - 1];
  }

  /** At a root or one level below, the loop as written agrees with the
      intended root. */
  lemma RootLoopShallow(tree: Tree, c: NodeId)
    requires Rooted(tree, c) && |Chain(tree, c)| <= 2
    ensures tree[c].parent.Some? ==> tree[c].parent.value in tree
    ensures RootLoop(tree, c, c, 1) == Some(Root(tree, c))
  {
    if tree[c].parent.Some? {
      ParentChain(tree, c);
    }
  }

  /** Names along a chain, read from its far end back to its start. */
  function RootwardNames(tree: Tree, c: seq<NodeId>): (r: seq<string>)
    requires forall i :: 0 <= i < |c| ==> c[i] in tree
    ensures |r| == |c|
    ensures forall i :: 0 <= i < |c| ==> r[i] == Name(tree[c[|c| - 1 - i]].use)
  {
    if |c| == 0 then [] else RootwardNames(tree, c[1..]) + [Name(tree[c[0]].use)]
  }

  /** `CommandPath`: the parent's path, a space, and the node's name. */
  function CommandPath(tree: Tree, id: NodeId): (r: string)
    requires Rooted(tree, id)
    decreases |Chain(tree, id)|
    ensures HasPrefix(r, Name(tree[Top(tree, id)].use))
    ensures |Name(tree[id].use)| <= |r| && r[|r| - |Name(tree[id].use)|..] == Name(tree[id].use)
  {
    match tree[id].parent
    case None => Name(tree[id].use)
    case Some(p) =>
      ParentChain(tree, id);
      CommandPath(tree, p) + " " + Name(tree[id].use)
  }

  /** The path is the names from the root down to the node, joined by spaces. */
  lemma {:induction false} CommandPathJoinsNames(tree: Tree, id: NodeId)
    requires Rooted(tree, id)
    ensures CommandPath(tree, id) == Join(RootwardNames(tree, Chain(tree, id)), " ")
    decreases |Chain(tree, id)|
  {
    var c := Chain(tree, id);
    match tree[id].parent
    case None =>
      assert c == [id];
    case Some(p) =>
      ParentChain(tree, id);
      CommandPathJoinsNames(tree, p);
      assert c[1..] == Chain(tree, p);
      JoinSnoc(RootwardNames(tree, Chain(tree, p)), Name(tree[id].use), " ");
  }

  /** The two commands of command_test.go: `test2` attached under `test1`. */
  function TestTree(): Tree {
    map[0 := Command("test1", false, "", None, [1]), 1 := Command("test2", false, "", Some(0), [])]
  }

  lemma TestTreeRooted()
    ensures Rooted(TestTree(), 0) && Rooted(TestTree(), 1)
    ensures Chain(TestTree(), 1) == [1, 0]
  {
    var t := TestTree();
    assert t.Keys == {0, 1};
    assert |t| == 2;
    assert t[0].parent == None && t[1].parent == Some(0);
    assert Ancestry(t, 0, 1) == Some([0]);
    assert [1] + [0] == [1, 0];
    assert Ancestry(t, 1, 2) == Some([1, 0]);
    AncestryMore(t, 0, 1, 2);
  }

  /** A use line without a space is its own name. */
  lemma NameOfWord(use: string)
    requires ' ' !in use
    ensures Name(use) == use
  {
  }

  lemma TestTreeNames()
    ensures Name(TestTree()[0].use) == "test1" && Name(TestTree()[1].use) == "test2"
  {
    NameOfWord("test1");
    NameOfWord("test2");
  }

  lemma CommandPathExample()
    ensures Rooted(TestTree(), 1)
    ensures CommandPath(TestTree(), 1) == "test1 test2"
  {
    TestTreeRooted();
    TestTreeNames();
    assert CommandPath(TestTree(), 0) == "test1";
  }

  /** `UseLine` before the flags marker: the parent's path and the usage
      line, or the usage line alone at a root. */
  function UseBase(tree: Tree, id: NodeId): string
    requires Rooted(tree, id)
  {
    match tree[id].parent
    case None => tree[id].use
    case Some(p) =>
      ParentChain(tree, id);
      CommandPath(tree, p) + " " + tree[id].use
  }

  /** `UseLine`; `hasFlags` stands for pflag's `HasAvailableFlags` on the
      node's merged flags. The marker is added once, and only when flags
      exist and the line does not mention it already. */
  function UseLine(tree: Tree, id: NodeId, hasFlags: bool): (r: string)
    requires Rooted(tree, id)
    ensures HasPrefix(r, UseBase(tree, id))
    ensures Contains(r, "[flags]") <==> hasFlags || Contains(UseBase(tree, id), "[flags]")
    ensures r == UseBase(tree, id) || r == UseBase(tree, id) + " [flags]"
    ensures r == UseBase(tree, id) + " [flags]" <==> hasFlags && !Contains(UseBase(tree, id), "[flags]")
  {
    var base := UseBase(tree, id);
    if hasFlags && !Contains(base, "[flags]") then
      ContainsSuffix(base + " ", "[flags]");
      assert base + " [flags]" == (base + " ") + "[flags]";
      base + " [flags]"
    else base
  }

  /** `UsageTemplate`: the node's own template if it has one, else the
      parent's, else the built-in one. */
  function UsageTemplate(tree: Tree, id: NodeId): (r: Template)
    requires Rooted(tree, id)
    decreases |Chain(tree, id)|
    ensures r.Custom? ==> r.text != ""
    ensures r.Custom? ==> exists n :: n in Chain(tree, id) && tree[n].usageTemplate == r.text
  {
    if tree[id].usageTemplate != "" then Custom(tree[id].usageTemplate)
    else
      match tree[id].parent
      case None => Builtin
      case Some(p) =>
        ParentChain(tree, id);
        UsageTemplate(tree, p)
  }

  /** The template in force is the first one set on the way to the root;
      the built-in one is used exactly when no node on that way sets one. */
  lemma {:induction false} UsageTemplateInherited(tree: Tree, id: NodeId)
    requires Rooted(tree, id)
    decreases |Chain(tree, id)|
    ensures var c, r := Chain(tree, id), UsageTemplate(tree, id);
      r.Builtin? <==> forall i :: 0 <= i < |c| ==> tree[c[i]].usageTemplate == ""
    ensures var c, r := Chain(tree, id), UsageTemplate(tree, id);
      r.Custom? ==>
        (exists k :: 0 <= k < |c| && tree[c[k]].usageTemplate == r.text
           && forall i :: 0 <= i < k ==> tree[c[i]].usageTemplate == "")
  {
    var c := Chain(tree, id);
    if tree[id].usageTemplate == "" {
      match tree[id].parent
      case None =>
        assert c == [id];
      case Some(p) =>
        ParentChain(tree, id);
        UsageTemplateInherited(tree, p);
        var cp := Chain(tree, p);
        assert c == [id] + cp;
        if UsageTemplate(tree, p).Custom? {
          var k :| 0 <= k < |cp| && tree[cp[k]].usageTemplate == UsageTemplate(tree, p).text
                   && forall i :: 0 <= i < k ==> tree[cp[i]].usageTemplate == "";
          assert c[k + 1] == cp[k];
          assert forall i :: 0 <= i < k + 1 ==> tree[c[i]].usageTemplate == "" by {
            forall i | 0 <= i < k + 1 ensures tree[c[i]].usageTemplate == "" {
              if i > 0 { assert c[i] == cp[i - 1]; }
            }
          }
        } else {
          forall i | 0 <= i < |c| ensures tree[c[i]].usageTemplate == "" {
            if i > 0 { assert c[i] == cp[i - 1]; }
          }
        }
    } else {
      assert c[0] == id;
    }
  }

  /** Every child a node lists is a node of the tree. */
  predicate ChildrenKnown(tree: Tree) {
    forall p, c :: p in tree && c in tree[p].commands ==> c in tree
  }

  /** A strict hierarchy: every parent chain reaches a root and every listed
      child names its lister as parent. */
  predicate TreeShaped(tree: Tree) {
    && (forall id :: id in tree ==> Rooted(tree, id))
    && (forall p, c :: p in tree && c in tree[p].commands ==> c in tree && tree[c].parent == Some(p))
  }

  /** How far below the tree size a node sits: shrinks going down. */
  function Height(tree: Tree, id: NodeId): nat
    requires Rooted(tree, id)
  {
    |tree| - |Chain(tree, id)|
  }

  lemma ChildLower(tree: Tree, p: NodeId, c: NodeId)
    requires TreeShaped(tree) && p in tree && c in tree[p].commands
    ensures c in tree && Height(tree, c) < Height(tree, p)
  {
    ParentChain(tree, c);
  }

  /** Every listed child sits lower than its parent. */
  lemma ChildrenLower(tree: Tree, id: NodeId)
    requires TreeShaped(tree) && id in tree
    ensures forall j :: 0 <= j < |tree[id].commands| ==>
              tree[id].commands[j] in tree && Height(tree, tree[id].commands[j]) < Height(tree, id)
  {
    forall j | 0 <= j < |tree[id].commands|
      ensures tree[id].commands[j] in tree && Height(tree, tree[id].commands[j]) < Height(tree, id)
    {
      ChildLower(tree, id, tree[id].commands[j]);
    }
  }

  /** `IsAvailableCommand`: runnable, or some child is available. */
  function IsAvailableCommand(tree: Tree, id: NodeId): (r: bool)
    requires TreeShaped(tree) && id in tree
    decreases Height(tree, id), 2, 0
    ensures forall j :: 0 <= j < |tree[id].commands| ==>
              tree[id].commands[j] in tree && Height(tree, tree[id].commands[j]) < Height(tree, id)
    ensures r <==> tree[id].runnable ||
                   exists j :: 0 <= j < |tree[id].commands| && IsAvailableCommand(tree, tree[id].commands[j])
  {
    ChildrenLower(tree, id);
    tree[id].runnable || HasAvailableSubCommands(tree, id)
  }

  /** `HasAvailableSubCommands`. */
  function HasAvailableSubCommands(tree: Tree, id: NodeId): (r: bool)
    requires TreeShaped(tree) && id in tree
    decreases Height(tree, id), 1, 0
    ensures forall j :: 0 <= j < |tree[id].commands| ==>
              tree[id].commands[j] in tree && Height(tree, tree[id].commands[j]) < Height(tree, id)
    ensures r <==> exists j :: 0 <= j < |tree[id].commands| && IsAvailableCommand(tree, tree[id].commands[j])
  {
    ChildrenLower(tree, id);
    AnyAvailableFrom(tree, id, 0)
  }

  /** The loop of `HasAvailableSubCommands` from child `i` on: true exactly
      when some child at `i` or later is available. */
  function AnyAvailableFrom(tree: Tree, id: NodeId, i: nat): (b: bool)
    requires TreeShaped(tree) && id in tree
    decreases Height(tree, id), 0, |tree[id].commands| - i
    ensures forall j :: 0 <= j < |tree[id].commands| ==>
              tree[id].commands[j] in tree && Height(tree, tree[id].commands[j]) < Height(tree, id)
    ensures b <==> exists j :: i <= j < |tree[id].commands| && IsAvailableCommand(tree, tree[id].commands[j])
  {
    ChildrenLower(tree, id);
    if i >= |tree[id].commands| then false
    else
      var c := tree[id].commands[i];
      IsAvailableCommand(tree, c) || AnyAvailableFrom(tree, id, i + 1)
  }

  /** `path` leads from `id` downwards, each step to a listed child. */
  predicate DownPath(tree: Tree, id: NodeId, path: seq<NodeId>) {
    && |path| > 0 && path[0] == id
    && (forall i :: 0 <= i < |path| ==> path[i] in tree)
    && (forall i :: 0 <= i < |path| - 1 ==> path[i + 1] in tree[path[i]].commands)
  }

  /** The subtree below `id` holds a runnable node. */
  ghost predicate SubtreeHasRunnable(tree: Tree, id: NodeId) {
    exists path :: DownPath(tree, id, path) && tree[path[|path| - 1]].runnable
  }

  /** An available node has a runnable node at or below it. */
  lemma {:induction false} AvailableHasRunnableBelow(tree: Tree, id: NodeId)
    requires TreeShaped(tree) && id in tree
    requires IsAvailableCommand(tree, id)
    ensures SubtreeHasRunnable(tree, id)
    decreases Height(tree, id)
  {
    if tree[id].runnable {
      assert DownPath(tree, id, [id]);
    } else {
      var cs := tree[id].commands;
      var j :| 0 <= j < |cs| && IsAvailableCommand(tree, cs[j]);
      ChildLower(tree, id, cs[j]);
      AvailableHasRunnableBelow(tree, cs[j]);
      var path :| DownPath(tree, cs[j], path) && tree[path[|path| - 1]].runnable;
      DownPathPrepend(tree, id, cs[j], path);
    }
  }

  /** A path down from a child, preceded by its parent, leads down from the parent. */
  lemma DownPathPrepend(tree: Tree, id: NodeId, c: NodeId, path: seq<NodeId>)
    requires id in tree && c in tree[id].commands && DownPath(tree, c, path)
    ensures DownPath(tree, id, [id] + path) && ([id] + path)[|path|] == path[|path| - 1]
  {
  }

  /** A runnable node at or below makes a node available. */
  lemma {:induction false} RunnableBelowIsAvailable(tree: Tree, id: NodeId, path: seq<NodeId>)
    requires TreeShaped(tree) && id in tree
    requires DownPath(tree, id, path) && tree[path[|path| - 1]].runnable
    ensures IsAvailableCommand(tree, id)
    decreases |path|
  {
    if |path| > 1 {
      var c := path[1];
      ChildLower(tree, id, c);
      assert DownPath(tree, c, path[1..]);
      RunnableBelowIsAvailable(tree, c, path[1..]);
      var cs := tree[id].commands;
      var j :| 0 <= j < |cs| && cs[j] == c;
      assert IsAvailableCommand(tree, cs[j]);
    }
  }

  /** Availability means exactly: some node at or below is runnable. */
  lemma AvailableIffRunnableBelow(tree: Tree, id: NodeId)
    requires TreeShaped(tree) && id in tree
    ensures IsAvailableCommand(tree, id) <==> SubtreeHasRunnable(tree, id)
  {
    if IsAvailableCommand(tree, id) {
      AvailableHasRunnableBelow(tree, id);
    }
    if SubtreeHasRunnable(tree, id) {
      var path :| DownPath(tree, id, path) && tree[path[|path| - 1]].runnable;
      RunnableBelowIsAvailable(tree, id, path);
    }
  }

  /** The index of the first child at `i` or later whose name is `name`. */
  function FirstNamedFrom(tree: Tree, cs: seq<NodeId>, name: string, i: nat): (r: Option<nat>)
    requires forall j :: 0 <= j < |cs| ==> cs[j] in tree
    decreases |cs| - i
    ensures r.Some? ==> i <= r.value < |cs| && Name(tree[cs[r.value]].use) == name
    ensures forall j :: i <= j < |cs| && (r.None? || j < r.value) ==> Name(tree[cs[j]].use) != name
  {
    if i >= |cs| then None
    else if Name(tree[cs[i]].use) == name then Some(i)
    else FirstNamedFrom(tree, cs, name, i + 1)
  }

  /** `findSubcmd`: the first child, in insertion order, named `name`. */
  function FindSubcmd(tree: Tree, id: NodeId, name: string): (r: Option<NodeId>)
    requires ChildrenKnown(tree) && id in tree
    ensures r.Some? ==> r.value in tree[id].commands && Name(tree[r.value].use) == name
    ensures r.None? <==> forall c :: c in tree[id].commands ==> Name(tree[c].use) != name
    ensures r.Some? ==> exists k :: 0 <= k < |tree[id].commands| && tree[id].commands[k] == r.value
                          && forall j :: 0 <= j < k ==> Name(tree[tree[id].commands[j]].use) != name
  {
    var cs := tree[id].commands;
    match FirstNamedFrom(tree, cs, name, 0)
    case None => None
    case Some(k) => Some(cs[k])
  }

  /** How `AddCommand` ends: normally, or by the panic on self-attachment,
      carrying the tree as the panic leaves it. */
  datatype AddOutcome = Added(tree: Tree) | Panicked(tree: Tree)

  /** The position of the first `c` in `cmds`, or `|cmds|` if there is none. */
  function FirstIndexOf(cmds: seq<NodeId>, c: NodeId): (k: nat)
    ensures k <= |cmds| && c !in cmds[..k]
    ensures k < |cmds| ==> cmds[k] == c
  {
    if |cmds| == 0 then 0
    else if cmds[0] == c then 0
    else
      var k := FirstIndexOf(cmds[1..], c);
      assert cmds[..k + 1] == [cmds[0]] + cmds[1..][..k];
      k + 1
  }

  /** One step of `AddCommand`: `x` gets `c` as parent and is appended to
      `c`'s children. */
  function Attach(t: Tree, c: NodeId, x: NodeId): (r: Tree)
    requires c in t && x in t && x != c
    ensures r.Keys == t.Keys
    ensures r[c] == t[c].(commands := t[c].commands + [x])
    ensures r[x] == t[x].(parent := Some(c))
    ensures forall n :: n in t && n != c && n != x ==> r[n] == t[n]
  {
    var t1 := t[x := t[x].(parent := Some(c))];
    t1[c := t1[c].(commands := t1[c].commands + [x])]
  }

  /** The tree after `AddCommand` has attached the first `i` arguments. */
  ghost predicate AttachedUpTo(tree: Tree, t: Tree, c: NodeId, cmds: seq<NodeId>, i: nat)
    requires c in tree && i <= |cmds|
  {
    && t.Keys == tree.Keys
    && t[c] == tree[c].(commands := tree[c].commands + cmds[..i])
    && (forall n :: n in cmds[..i] ==> n in tree && t[n] == tree[n].(parent := Some(c)))
    && (forall n :: n in tree && n != c && n !in cmds[..i] ==> t[n] == tree[n])
  }

  lemma AttachStep(tree: Tree, t: Tree, c: NodeId, cmds: seq<NodeId>, i: nat)
    requires c in tree && i < |cmds| && cmds[i] in tree && cmds[i] != c
    requires AttachedUpTo(tree, t, c, cmds, i)
    ensures AttachedUpTo(tree, Attach(t, c, cmds[i]), c, cmds, i + 1)
  {
    var x := cmds[i];
    var t1 := Attach(t, c, x);
    assert cmds[..i + 1] == cmds[..i] + [x];
    forall n | n in cmds[..i + 1]
      ensures n in tree && t1[n] == tree[n].(parent := Some(c))
    {
      if n != x {
        assert n in cmds[..i];
      }
    }
  }

  /** `AddCommand`: each argument in turn gets `c` as parent and is appended
      to `c`'s children; meeting `c` itself panics, leaving the arguments
      before it attached. Repeats are attached again. */
  method AddCommand(tree: Tree, c: NodeId, cmds: seq<NodeId>) returns (r: AddOutcome)
    requires c in tree
    requires forall i :: 0 <= i < |cmds| ==> cmds[i] in tree
    ensures r.Panicked? <==> c in cmds
    ensures var k := FirstIndexOf(cmds, c);
      && r.tree.Keys == tree.Keys
      && r.tree[c] == tree[c].(commands := tree[c].commands + cmds[..k])
      && (forall n :: n in cmds[..k] ==> r.tree[n] == tree[n].(parent := Some(c)))
      && (forall n :: n in tree && n != c && n !in cmds[..k] ==> r.tree[n] == tree[n])
  {
    var t := tree;
    var i := 0;
    var k := FirstIndexOf(cmds, c);
    assert cmds[..0] == [] && tree[c].commands + [] == tree[c].commands;
    while i < |cmds|
      invariant 0 <= i <= k
      invariant AttachedUpTo(tree, t, c, cmds, i)
    {
      if cmds[i] == c {
        return Panicked(t);
      }
      AttachStep(tree, t, c, cmds, i);
      t := Attach(t, c, cmds[i]);
      i := i + 1;
    }
    assert cmds[..i] == cmds;
    return Added(t);
  }

  // Parent cycles. `AddCommand` rejects only the receiver itself, so adding
  // one of its ancestors closes a loop of parents; the guard that keeps
  // every parent chain finite rejects the whole chain.

  /** An ancestry list never repeats a node. */
  lemma {:induction false} AncestryDistinct(tree: Tree, id: NodeId, fuel: nat)
    requires Ancestry(tree, id, fuel).Some?
    ensures var c := Ancestry(tree, id, fuel).value;
      forall i, j :: 0 <= i < j < |c| ==> c[i] != c[j]
    decreases fuel
  {
    var c := Ancestry(tree, id, fuel).value;
    AncestryShape(tree, id, fuel);
    if tree[id].parent.Some? {
      var p := tree[id].parent.value;
      AncestryDistinct(tree, p, fuel - 1);
      var c' := Ancestry(tree, p, fuel - 1).value;
      assert c == [id] + c';
      if id in c' {
        var k :| 0 <= k < |c'| && c'[k] == id;
        AncestrySuffix(tree, p, fuel - 1, k);
        AncestryMore(tree, id, fuel - 1 - k, fuel);
        assert false;
      }
    }
  }

  /** An ancestry list is found with exactly as much fuel as its length. */
  lemma {:induction false} AncestryTight(tree: Tree, id: NodeId, fuel: nat)
    requires Ancestry(tree, id, fuel).Some?
    ensures Ancestry(tree, id, |Ancestry(tree, id, fuel).value|) == Ancestry(tree, id, fuel)
    decreases fuel
  {
    if tree[id].parent.Some? {
      AncestryTight(tree, tree[id].parent.value, fuel - 1);
    }
  }

  lemma {:induction false} DistinctWithin(s: seq<NodeId>, keys: set<NodeId>)
    requires forall i, j :: 0 <= i < j < |s| ==> s[i] != s[j]
    requires forall i :: 0 <= i < |s| ==> s[i] in keys
    ensures |s| <= |keys|
    decreases |s|
  {
    if |s| > 0 {
      DistinctWithin(s[1..], keys - {s[0]});
    }
  }

  /** A node whose parents reach a root within any fuel is `Rooted`. */
  lemma RootedByAnyFuel(tree: Tree, id: NodeId, fuel: nat)
    requires Ancestry(tree, id, fuel).Some?
    ensures Rooted(tree, id)
  {
    var c := Ancestry(tree, id, fuel).value;
    AncestryShape(tree, id, fuel);
    AncestryDistinct(tree, id, fuel);
    DistinctWithin(c, tree.Keys);
    AncestryTight(tree, id, fuel);
    AncestryMore(tree, id, |c|, |tree|);
  }

  /** Nodes whose parents run round a loop never reach a root. */
  lemma {:induction false} LoopUnrooted(tree: Tree, loop: seq<NodeId>, i: nat, fuel: nat)
    requires 0 < |loop| && i < |loop|
    requires forall j :: 0 <= j < |loop| ==> loop[j] in tree
    requires forall j :: 0 <= j < |loop| - 1 ==> tree[loop[j]].parent == Some(loop[j + 1])
    requires tree[loop[|loop| - 1]].parent == Some(loop[0])
    ensures Ancestry(tree, loop[i], fuel).None?
    decreases fuel
  {
    if fuel > 0 {
      LoopUnrooted(tree, loop, if i + 1 < |loop| then i + 1 else 0, fuel - 1);
    }
  }

  /** As written: attaching an ancestor `x` of `c` under `c`, which the
      receiver-only check of `AddCommand` lets through, leaves neither `c`
      nor `x` with a finite parent chain. */
  lemma AttachAncestorUnroots(t: Tree, c: NodeId, x: NodeId)
    requires Rooted(t, c) && x in Chain(t, c) && x != c
    ensures !Rooted(Attach(t, c, x), c) && !Rooted(Attach(t, c, x), x)
  {
    var ch := Chain(t, c);
    var k := FirstIndexOf(ch, x);
    var loop := ch[..k + 1];
    var r := Attach(t, c, x);
    forall j | 0 <= j < |loop| - 1
      ensures r[loop[j]].parent == Some(loop[j + 1])
    {
      assert loop[j] == ch[j] && ch[j] != x && loop[j + 1] == ch[j + 1];
    }
    assert loop[k] == x && loop[0] == c;
    LoopUnrooted(r, loop, 0, |r|);
    LoopUnrooted(r, loop, k, |r|);
  }

  /** Two commands added under each other: `b.AddCommand(a)` then
      `a.AddCommand(b)`. */
  lemma ParentCycleExample()
    ensures var t0 := map[1 := Command("a", true, "", None, []), 2 := Command("b", true, "", None, [])];
      var t2 := Attach(Attach(t0, 2, 1), 1, 2);
      !Rooted(t2, 1) && !Rooted(t2, 2)
  {
    var t0 := map[1 := Command("a", true, "", None, []), 2 := Command("b", true, "", None, [])];
    var t1 := Attach(t0, 2, 1);
    assert t1[1].parent == Some(2) && t1[2].parent.None?;
    assert Ancestry(t1, 2, 1) == Some([2]);
    assert [1] + [2] == [1, 2];
    assert Ancestry(t1, 1, 2) == Some([1, 2]);
    assert Chain(t1, 1) == [1, 2];
    AttachAncestorUnroots(t1, 1, 2);
  }

  /** Parents off the path from `x` keep their ancestry. */
  lemma {:induction false} AttachKeepsAncestry(t: Tree, c: NodeId, x: NodeId, id: NodeId, fuel: nat)
    requires c in t && x in t && x != c
    requires Ancestry(t, id, fuel).Some? && x !in Ancestry(t, id, fuel).value
    ensures Ancestry(Attach(t, c, x), id, fuel) == Ancestry(t, id, fuel)
    decreases fuel
  {
    if t[id].parent.Some? {
      AttachKeepsAncestry(t, c, x, t[id].parent.value, fuel - 1);
    }
  }

  /** Attaching `x` under `c` leaves `c`'s chain as it was when `x` is not on it. */
  lemma AttachKeepsChain(t: Tree, c: NodeId, x: NodeId)
    requires Rooted(t, c) && x in t && x !in Chain(t, c)
    ensures Rooted(Attach(t, c, x), c) && Chain(Attach(t, c, x), c) == Chain(t, c)
  {
    AttachKeepsAncestry(t, c, x, c, |t|);
  }

  lemma {:induction false} AttachAncestry(t: Tree, c: NodeId, x: NodeId, id: NodeId, fuel: nat)
    requires Rooted(t, c) && x in t && x !in Chain(t, c)
    requires Ancestry(t, id, fuel).Some?
    ensures Ancestry(Attach(t, c, x), id, fuel + |t| + 1).Some?
    decreases fuel
  {
    var r := Attach(t, c, x);
    if id == x {
      AttachKeepsChain(t, c, x);
      AncestryMore(r, c, |r|, fuel + |t|);
    } else if t[id].parent.Some? {
      AttachAncestry(t, c, x, t[id].parent.value, fuel - 1);
    }
  }

  /** Corrected: attaching a node that is not on `c`'s chain keeps every
      rooted node rooted. */
  lemma AttachKeepsRooted(t: Tree, c: NodeId, x: NodeId)
    requires Rooted(t, c) && x in t && x !in Chain(t, c)
    ensures forall n :: Rooted(t, n) ==> Rooted(Attach(t, c, x), n)
  {
    forall n | Rooted(t, n)
      ensures Rooted(Attach(t, c, x), n)
    {
      AttachAncestry(t, c, x, n, |t|);
      RootedByAnyFuel(Attach(t, c, x), n, |t| + |t| + 1);
    }
  }

  /** Every node of the tree has a finite parent chain. */
  predicate Forest(tree: Tree) {
    forall n :: n in tree ==> Rooted(tree, n)
  }

  /** One step of the guarded loop keeps its invariant. */
  lemma GuardedStep(tree: Tree, t: Tree, c: NodeId, cmds: seq<NodeId>, i: nat)
    requires Forest(tree) && c in tree && i < |cmds| && cmds[i] in tree
    requires AttachedUpTo(tree, t, c, cmds, i) && Forest(t)
    requires Chain(t, c) == Chain(tree, c) && cmds[i] !in Chain(t, c)
    ensures Forest(Attach(t, c, cmds[i])) && c in Attach(t, c, cmds[i])
    ensures AttachedUpTo(tree, Attach(t, c, cmds[i]), c, cmds, i + 1)
    ensures Chain(Attach(t, c, cmds[i]), c) == Chain(tree, c)
  {
    AttachStep(tree, t, c, cmds, i);
    AttachKeepsRooted(t, c, cmds[i]);
    AttachKeepsChain(t, c, cmds[i]);
  }

  /** The position of the first element of `cmds` that lies in `s`. */
  function FirstIndexIn(cmds: seq<NodeId>, s: seq<NodeId>): (k: nat)
    ensures k <= |cmds|
    ensures forall i :: 0 <= i < k ==> cmds[i] !in s
    ensures k < |cmds| ==> cmds[k] in s
  {
    if |cmds| == 0 || cmds[0] in s then 0 else FirstIndexIn(cmds[1..], s) + 1
  }

  /** Corrected `AddCommand`: meeting `c` or any of its ancestors panics,
      so every node of a forest keeps a finite parent chain. */
  method AddCommandGuarded(tree: Tree, c: NodeId, cmds: seq<NodeId>) returns (r: AddOutcome)
    requires Forest(tree) && c in tree
    requires forall i :: 0 <= i < |cmds| ==> cmds[i] in tree
    ensures var k := FirstIndexIn(cmds, Chain(tree, c));
      && (r.Panicked? <==> k < |cmds|)
      && r.tree.Keys == tree.Keys
      && r.tree[c] == tree[c].(commands := tree[c].commands + cmds[..k])
      && (forall n :: n in cmds[..k] ==> r.tree[n] == tree[n].(parent := Some(c)))
      && (forall n :: n in tree && n != c && n !in cmds[..k] ==> r.tree[n] == tree[n])
    ensures Forest(r.tree)
  {
    var t := tree;
    var i := 0;
    var k := FirstIndexIn(cmds, Chain(tree, c));
    assert cmds[..0] == [] && tree[c].commands + [] == tree[c].commands;
    while i < |cmds|
      invariant 0 <= i <= k
      invariant AttachedUpTo(tree, t, c, cmds, i)
      invariant Forest(t) && Chain(t, c) == Chain(tree, c)
    {
      if cmds[i] in Chain(t, c) {
        assert i == k;
        return Panicked(t);
      }
      GuardedStep(tree, t, c, cmds, i);
      t := Attach(t, c, cmds[i]);
      i := i + 1;
    }
    assert cmds[..i] == cmds;
    return Added(t);
  }
}

=== FILE: flagscope.dfy ===
/** Which flag set each command holds, in command.go: its local set, the
    global set shared by its whole tree, and its merged set. Sets are named
    by ids so that sharing one set between nodes is visible; their contents
    live in one map. */
module FlagScope {
  import opened Wrappers
  import opened FlagSets
  import opened Tokenizer
  import opened Commands

  type SetId = nat

  /** The `lflags`, `gflags` and `flags` fields of a command; `None` is nil. */
  datatype Scope = Scope(lflags: Option<SetId>, gflags: Option<SetId>, flags: Option<SetId>)

  const NoScope: Scope := Scope(None, None, None)

  /** The scopes of the nodes, the contents of every set, and the id the
      next new set gets. */
  datatype FlagState = FlagState(scopes: map<NodeId, Scope>, sets: map<SetId, FlagSet>, next: SetId)

  function ScopeOf(st: FlagState, id: NodeId): Scope {
    if id in st.scopes then st.scopes[id] else NoScope
  }

  function SetOf(st: FlagState, sid: SetId): FlagSet {
    if sid in st.sets then st.sets[sid] else Empty
  }

  /** The names defined in the set a field points at; none for nil. */
  function NamesIn(st: FlagState, field: Option<SetId>): set<string> {
    match field
    case None => {}
    case Some(sid) => SetOf(st, sid).formal.Keys
  }

  /** The set a field points at; the empty set for nil. */
  function SetIn(st: FlagState, field: Option<SetId>): FlagSet {
    match field
    case None => Empty
    case Some(sid) => SetOf(st, sid)
  }

  lemma NamesOfSet(st: FlagState, field: Option<SetId>)
    ensures NamesIn(st, field) == SetIn(st, field).formal.Keys
  {
  }

  function Held(sc: Scope): set<SetId> {
    (if sc.lflags.Some? then {sc.lflags.value} else {})
    + (if sc.gflags.Some? then {sc.gflags.value} else {})
    + (if sc.flags.Some? then {sc.flags.value} else {})
  }

  /** Every set a node points at exists, and every existing set is older
      than the next one to be made. */
  predicate Valid(st: FlagState) {
    && (forall sid :: sid in st.sets ==> sid < st.next)
    && (forall n :: n in st.scopes ==> Held(st.scopes[n]) <= st.sets.Keys)
  }

  /** `flag.NewFlagSet`: a new, empty set under a fresh id. */
  function NewSet(st: FlagState): (r: (FlagState, SetId))
    requires Valid(st)
    ensures r.1 !in st.sets && r.1 in r.0.sets && SetOf(r.0, r.1) == Empty
    ensures r.0.sets == st.sets[r.1 := Empty] && r.0.scopes == st.scopes
    ensures Valid(r.0)
  {
    (st.(sets := st.sets[st.next := Empty], next := st.next + 1), st.next)
  }

  /** Every node of `c` holds `g` as its global set, its other fields as in `st`. */
  ghost predicate ChainHolds(st: FlagState, st': FlagState, c: seq<NodeId>, g: SetId) {
    forall n :: n in c ==> n in st'.scopes && st'.scopes[n] == ScopeOf(st, n).(gflags := Some(g))
  }

  /** Nodes off `c` keep their scopes. */
  ghost predicate OffChainSame(st: FlagState, st': FlagState, c: seq<NodeId>) {
    && (forall n :: n !in c ==> (n in st'.scopes <==> n in st.scopes))
    && (forall n :: n !in c && n in st.scopes ==> st'.scopes[n] == st.scopes[n])
  }

  /** `g` is the root's set `top` if there was one, else a set made for it. */
  ghost predicate RootSet(st: FlagState, st': FlagState, top: Option<SetId>, g: SetId) {
    && (top.Some? ==> g == top.value && st'.sets == st.sets && st'.next == st.next)
    && (top.None? ==> g == st.next && st'.sets == st.sets[st.next := Empty] && st'.next == st.next + 1)
  }

  /** `st'` is `st` after the nodes from `id` up to its root were made to
      hold the global set `g`: the root's own set if it had one, else a new
      set; nothing else changes. */
  ghost predicate Converged(tree: Tree, st: FlagState, st': FlagState, id: NodeId, g: SetId)
    requires Rooted(tree, id)
  {
    var c := Chain(tree, id);
    && Valid(st') && g in st'.sets
    && ChainHolds(st, st', c, g)
    && OffChainSame(st, st', c)
    && RootSet(st, st', ScopeOf(st, c[|c| - 1]).gflags, g)
  }

  /** `getFaGflags`: a non-root node adopts its parent's global set. */
  function GetFaGflags(tree: Tree, st: FlagState, id: NodeId): (r: FlagState)
    requires Rooted(tree, id) && Valid(st)
    decreases |Chain(tree, id)|, 0
    ensures tree[id].parent.None? ==> r == st
    ensures tree[id].parent.Some? ==>
              ScopeOf(r, id).gflags.Some? && Converged(tree, st, r, id, ScopeOf(r, id).gflags.value)
  {
    match tree[id].parent
    case None => st
    case Some(p) =>
      ParentChain(tree, id);
      var (st1, g) := GetGflags(tree, st, p);
      ConvergeOneMore(tree, st, st1, id, g);
      st1.(scopes := st1.scopes[id := ScopeOf(st1, id).(gflags := Some(g))])
  }

  /** `getGflags`: converge from `id` up to the root, then make the root a
      set if it still has none; return the set `id` now holds. */
  function GetGflags(tree: Tree, st: FlagState, id: NodeId): (r: (FlagState, SetId))
    requires Rooted(tree, id) && Valid(st)
    decreases |Chain(tree, id)|, 1
    ensures Converged(tree, st, r.0, id, r.1)
  {
    var st1 := GetFaGflags(tree, st, id);
    match ScopeOf(st1, id).gflags
    case Some(g) =>
      RootKeeps(tree, st, st1, id, g);
      (st1, g)
    case None =>
      var (st2, g) := NewSet(st1);
      RootCreates(tree, st, st2, id, g);
      (st2.(scopes := st2.scopes[id := ScopeOf(st2, id).(gflags := Some(g))]), g)
  }

  /** From the parent's convergence to the child's: adopting the parent's
      set extends the converged chain by one node. */
  lemma ConvergeOneMore(tree: Tree, st: FlagState, st1: FlagState, id: NodeId, g: SetId)
    requires Rooted(tree, id) && tree[id].parent.Some? && Valid(st)
    requires Rooted(tree, tree[id].parent.value)
    requires Converged(tree, st, st1, tree[id].parent.value, g)
    ensures var r := st1.(scopes := st1.scopes[id := ScopeOf(st1, id).(gflags := Some(g))]);
      ScopeOf(r, id).gflags == Some(g) && Converged(tree, st, r, id, g)
  {
    var p := tree[id].parent.value;
    ParentChain(tree, id);
    ChainDistinct(tree, id);
    var c, cp := Chain(tree, id), Chain(tree, p);
    assert c == [id] + cp;
    assert c[|c| - 1] == cp[|cp| - 1];
    ExtendConverged(st, st1, id, cp, g, ScopeOf(st, cp[|cp| - 1]).gflags);
  }

  lemma ExtendConverged(st: FlagState, st1: FlagState, id: NodeId, cp: seq<NodeId>, g: SetId, top: Option<SetId>)
    requires id !in cp && Valid(st1) && g in st1.sets
    requires ChainHolds(st, st1, cp, g) && OffChainSame(st, st1, cp) && RootSet(st, st1, top, g)
    ensures var r := st1.(scopes := st1.scopes[id := ScopeOf(st1, id).(gflags := Some(g))]);
      && ScopeOf(r, id).gflags == Some(g)
      && Valid(r) && g in r.sets
      && ChainHolds(st, r, [id] + cp, g) && OffChainSame(st, r, [id] + cp) && RootSet(st, r, top, g)
  {
    assert ScopeOf(st1, id) == ScopeOf(st, id);
    var r := st1.(scopes := st1.scopes[id := ScopeOf(st1, id).(gflags := Some(g))]);
    var c := [id] + cp;
    forall n | n in c
      ensures n in r.scopes && r.scopes[n] == ScopeOf(st, n).(gflags := Some(g))
    {
      if n != id {
        assert n in cp;
      }
    }
    forall n | n in r.scopes
      ensures Held(r.scopes[n]) <= r.sets.Keys
    {
      if n != id {
        assert r.scopes[n] == st1.scopes[n];
      }
    }
  }

  /** At a root that already holds a set, nothing more happens. */
  lemma RootKeeps(tree: Tree, st: FlagState, st1: FlagState, id: NodeId, g: SetId)
    requires Rooted(tree, id) && Valid(st)
    requires tree[id].parent.None? ==> st1 == st
    requires ScopeOf(st1, id).gflags == Some(g)
    requires tree[id].parent.Some? ==> Converged(tree, st, st1, id, g)
    ensures Converged(tree, st, st1, id, g)
  {
    if tree[id].parent.None? {
      var c := Chain(tree, id);
      assert c == [id];
      assert id in st.scopes;
      assert st.scopes[id] == ScopeOf(st, id).(gflags := Some(g));
    }
  }

  /** At a root that holds no set, the new set is adopted. */
  lemma RootCreates(tree: Tree, st: FlagState, st2: FlagState, id: NodeId, g: SetId)
    requires Rooted(tree, id) && Valid(st) && tree[id].parent.None?
    requires ScopeOf(st, id).gflags.None? && NewSet(st) == (st2, g)
    ensures Converged(tree, st, st2.(scopes := st2.scopes[id := ScopeOf(st2, id).(gflags := Some(g))]), id, g)
  {
    var c := Chain(tree, id);
    assert c == [id];
  }

  /** A second `getGflags` on the same node changes nothing. */
  lemma GetGflagsIdempotent(tree: Tree, st: FlagState, id: NodeId)
    requires Rooted(tree, id) && Valid(st)
    ensures var (s1, g) := GetGflags(tree, st, id);
      GetGflags(tree, s1, id) == (s1, g)
  {
    var (s1, g) := GetGflags(tree, st, id);
    var (s2, g2) := GetGflags(tree, s1, id);
    var c := Chain(tree, id);
    assert c[|c| - 1] in c;
    assert g2 == g;
    forall n | n in c
      ensures n in s2.scopes && s2.scopes[n] == s1.scopes[n]
    {
    }
    assert s2.scopes == s1.scopes;
  }

  /** Two nodes of one tree get the same global set: whichever asks first
      makes it, the other finds it. */
  lemma GlobalSetShared(tree: Tree, st: FlagState, a: NodeId, b: NodeId)
    requires Rooted(tree, a) && Rooted(tree, b) && Valid(st)
    requires Top(tree, a) == Top(tree, b)
    ensures var (s1, ga) := GetGflags(tree, st, a);
      var (s2, gb) := GetGflags(tree, s1, b);
      gb == ga && s2.sets == s1.sets
  {
    var (s1, ga) := GetGflags(tree, st, a);
    var ca, cb := Chain(tree, a), Chain(tree, b);
    assert ca[|ca| - 1] in ca;
    assert cb[|cb| - 1] == ca[|ca| - 1];
  }

  /** Defining a flag in a set, as `StringP` and the like do. */
  function Register(st: FlagState, sid: SetId, f: Flag): (r: Result<FlagState, FlagError>)
    requires Valid(st) && sid in st.sets
    ensures r.Success? <==> AddFlag(SetOf(st, sid), f).Success?
    ensures r.Success? ==> Valid(r.value) && r.value.scopes == st.scopes && r.value.next == st.next
    ensures r.Success? ==> f.name in NamesIn(r.value, Some(sid))
    ensures r.Success? ==> r.value == st.(sets := st.sets[sid := AddFlag(SetOf(st, sid), f).value])
    ensures r.Success? ==> forall s :: s in st.sets && s != sid ==> s in r.value.sets && r.value.sets[s] == st.sets[s]
  {
    match AddFlag(SetOf(st, sid), f)
    case Failure(e) => Failure(e)
    case Success(fs) => Success(st.(sets := st.sets[sid := fs]))
  }

  /** A global flag registered through one node is seen through any other
      node of the same tree, ancestors included. */
  lemma GlobalFlagVisibleEverywhere(tree: Tree, st: FlagState, a: NodeId, b: NodeId, f: Flag)
    requires Rooted(tree, a) && Rooted(tree, b) && Valid(st)
    requires Top(tree, a) == Top(tree, b)
    requires var (s1, ga) := GetGflags(tree, st, a);
      Register(s1, ga, f).Success?
    ensures var (s1, ga) := GetGflags(tree, st, a);
      var s2 := Register(s1, ga, f).value;
      var (s3, gb) := GetGflags(tree, s2, b);
      gb == ga && f.name in NamesIn(s3, Some(gb))
  {
    var (s1, ga) := GetGflags(tree, st, a);
    var s2 := Register(s1, ga, f).value;
    var ca, cb := Chain(tree, a), Chain(tree, b);
    assert ca[|ca| - 1] in ca;
    assert cb[|cb| - 1] == ca[|ca| - 1];
    assert ScopeOf(s2, cb[|cb| - 1]) == ScopeOf(s1, ca[|ca| - 1]);
  }

  /** Local and merged sets each belong to one node and one role: only
      global sets are shared. */
  ghost predicate Private(st: FlagState) {
    && (forall a, b :: ScopeOf(st, a).lflags.Some? ==>
          && ScopeOf(st, a).lflags != ScopeOf(st, b).gflags
          && ScopeOf(st, a).lflags != ScopeOf(st, b).flags
          && (a != b ==> ScopeOf(st, a).lflags != ScopeOf(st, b).lflags))
    && (forall a, b :: ScopeOf(st, a).flags.Some? ==>
          && ScopeOf(st, a).flags != ScopeOf(st, b).gflags
          && (a != b ==> ScopeOf(st, a).flags != ScopeOf(st, b).flags))
  }

  lemma HeldInSets(st: FlagState, n: NodeId)
    requires Valid(st)
    ensures Held(ScopeOf(st, n)) <= st.sets.Keys
  {
  }

  /** Convergence only hands out the root's global set or a new one, so it
      keeps local and merged sets private. */
  lemma ConvergedKeepsPrivate(tree: Tree, st: FlagState, st': FlagState, id: NodeId, g: SetId)
    requires Rooted(tree, id) && Valid(st) && Private(st)
    requires Converged(tree, st, st', id, g)
    ensures Private(st')
  {
    var c := Chain(tree, id);
    var top := c[|c| - 1];
    assert forall n :: ScopeOf(st', n).lflags == ScopeOf(st, n).lflags && ScopeOf(st', n).flags == ScopeOf(st, n).flags by {
      forall n ensures ScopeOf(st', n).lflags == ScopeOf(st, n).lflags && ScopeOf(st', n).flags == ScopeOf(st, n).flags {
        if n in c {} else {}
      }
    }
    forall a, b
      ensures ScopeOf(st', a).lflags.Some? ==> ScopeOf(st', a).lflags != ScopeOf(st', b).gflags
      ensures ScopeOf(st', a).flags.Some? ==> ScopeOf(st', a).flags != ScopeOf(st', b).gflags
    {
      if b in c {
        assert ScopeOf(st', b).gflags == Some(g);
        HeldInSets(st, a);
        if ScopeOf(st, top).gflags.Some? {
          assert ScopeOf(st, a).lflags != ScopeOf(st, top).gflags;
          assert ScopeOf(st, a).flags != ScopeOf(st, top).gflags;
        }
      } else {
        assert ScopeOf(st', b) == ScopeOf(st, b);
      }
    }
  }

  /** What `getFaGflags` keeps: the invariants, every node's local and
      merged sets, and the contents of every existing set. */
  lemma FaKeeps(tree: Tree, st: FlagState, id: NodeId)
    requires Rooted(tree, id) && Valid(st) && Private(st)
    ensures var st1 := GetFaGflags(tree, st, id);
      && Valid(st1) && Private(st1) && st1.next >= st.next
      && (forall s :: s in st.sets ==> s in st1.sets && st1.sets[s] == st.sets[s])
      && (forall n :: ScopeOf(st1, n).lflags == ScopeOf(st, n).lflags)
      && (forall n :: ScopeOf(st1, n).flags == ScopeOf(st, n).flags)
      && (tree[id].parent.Some? ==>
            && ScopeOf(st1, id).gflags.Some?
            && forall n :: n in Chain(tree, id) ==> ScopeOf(st1, n).gflags == ScopeOf(st1, id).gflags)
  {
    var st1 := GetFaGflags(tree, st, id);
    if tree[id].parent.Some? {
      var g := ScopeOf(st1, id).gflags.value;
      ConvergedKeepsPrivate(tree, st, st1, id, g);
      var c := Chain(tree, id);
      forall n
        ensures ScopeOf(st1, n).lflags == ScopeOf(st, n).lflags
        ensures ScopeOf(st1, n).flags == ScopeOf(st, n).flags
      {
        if n in c {} else {}
      }
    }
  }

  /** The new set `s` is held by no node before `id` takes it. */
  lemma NewSetUnheld(st: FlagState, s: SetId)
    requires Valid(st) && s !in st.sets && s >= st.next
    ensures forall n :: s !in Held(ScopeOf(st, n))
  {
    forall n ensures s !in Held(ScopeOf(st, n)) {
      HeldInSets(st, n);
    }
  }

  /** A new empty set becomes `id`'s local set. */
  function NewLocal(st: FlagState, id: NodeId): (r: (FlagState, SetId))
    requires Valid(st) && Private(st) && ScopeOf(st, id).lflags.None?
    ensures Valid(r.0) && Private(r.0)
    ensures r.1 !in st.sets && r.0.sets == st.sets[r.1 := Empty] && r.0.next > st.next
    ensures ScopeOf(r.0, id) == ScopeOf(st, id).(lflags := Some(r.1))
    ensures forall n :: n != id ==> ScopeOf(r.0, n) == ScopeOf(st, n)
  {
    var (st2, l) := NewSet(st);
    NewLocalPrivate(st, id);
    (st2.(scopes := st2.scopes[id := ScopeOf(st2, id).(lflags := Some(l))]), l)
  }

  lemma NewLocalPrivate(st: FlagState, id: NodeId)
    requires Valid(st) && Private(st) && ScopeOf(st, id).lflags.None?
    ensures var (st2, l) := NewSet(st);
      Private(st2.(scopes := st2.scopes[id := ScopeOf(st2, id).(lflags := Some(l))]))
  {
    var (st2, l) := NewSet(st);
    NewSetUnheld(st, l);
    var st3 := st2.(scopes := st2.scopes[id := ScopeOf(st2, id).(lflags := Some(l))]);
    forall a, b
      ensures ScopeOf(st3, a).lflags.Some? ==>
        && ScopeOf(st3, a).lflags != ScopeOf(st3, b).gflags
        && ScopeOf(st3, a).lflags != ScopeOf(st3, b).flags
        && (a != b ==> ScopeOf(st3, a).lflags != ScopeOf(st3, b).lflags)
      ensures ScopeOf(st3, a).flags.Some? ==>
        && ScopeOf(st3, a).flags != ScopeOf(st3, b).gflags
        && (a != b ==> ScopeOf(st3, a).flags != ScopeOf(st3, b).flags)
    {
      assert l !in Held(ScopeOf(st, a)) && l !in Held(ScopeOf(st, b));
    }
  }

  /** A new empty set becomes `id`'s merged set. */
  function NewMerged(st: FlagState, id: NodeId): (r: (FlagState, SetId))
    requires Valid(st) && Private(st) && ScopeOf(st, id).flags.None?
    ensures Valid(r.0) && Private(r.0)
    ensures r.1 !in st.sets && r.0.sets == st.sets[r.1 := Empty] && r.0.next > st.next
    ensures ScopeOf(r.0, id) == ScopeOf(st, id).(flags := Some(r.1))
    ensures forall n :: n != id ==> ScopeOf(r.0, n) == ScopeOf(st, n)
  {
    var (st2, f) := NewSet(st);
    NewMergedPrivate(st, id);
    (st2.(scopes := st2.scopes[id := ScopeOf(st2, id).(flags := Some(f))]), f)
  }

  lemma NewMergedPrivate(st: FlagState, id: NodeId)
    requires Valid(st) && Private(st) && ScopeOf(st, id).flags.None?
    ensures var (st2, f) := NewSet(st);
      Private(st2.(scopes := st2.scopes[id := ScopeOf(st2, id).(flags := Some(f))]))
  {
    var (st2, f) := NewSet(st);
    NewSetUnheld(st, f);
    var st3 := st2.(scopes := st2.scopes[id := ScopeOf(st2, id).(flags := Some(f))]);
    forall a, b
      ensures ScopeOf(st3, a).lflags.Some? ==>
        && ScopeOf(st3, a).lflags != ScopeOf(st3, b).gflags
        && ScopeOf(st3, a).lflags != ScopeOf(st3, b).flags
        && (a != b ==> ScopeOf(st3, a).lflags != ScopeOf(st3, b).lflags)
      ensures ScopeOf(st3, a).flags.Some? ==>
        && ScopeOf(st3, a).flags != ScopeOf(st3, b).gflags
        && (a != b ==> ScopeOf(st3, a).flags != ScopeOf(st3, b).flags)
    {
      assert f !in Held(ScopeOf(st, a)) && f !in Held(ScopeOf(st, b));
    }
  }

  /** `st'` differs from `st` as `getFaGflags` on `id` leaves it, apart
      from `id`'s own local and merged fields: nodes off the parent chain
      keep their scopes; the chain nodes above `id` keep every other field
      and hold `id`'s global set; below a root that set is the root's
      existing one, or a new empty set `st` did not have. */
  ghost predicate AdoptedGlobals(tree: Tree, st: FlagState, st': FlagState, id: NodeId)
    requires Rooted(tree, id)
  {
    var c := Chain(tree, id);
    var top := ScopeOf(st, c[|c| - 1]).gflags;
    var g := ScopeOf(st', id).gflags;
    && (forall n :: n !in c ==> ScopeOf(st', n) == ScopeOf(st, n))
    && (forall n :: n in c && n != id ==> ScopeOf(st', n) == ScopeOf(st, n).(gflags := g))
    && (tree[id].parent.None? ==> g == ScopeOf(st, id).gflags)
    && (tree[id].parent.Some? ==>
          && g.Some?
          && (top.Some? ==> g == top)
          && (top.None? ==> g.value !in st.sets && g.value in st'.sets && st'.sets[g.value] == Empty))
  }

  /** What `getFaGflags` does to the scopes, with `id`'s other fields kept. */
  lemma FaAdopts(tree: Tree, st: FlagState, id: NodeId)
    requires Rooted(tree, id) && Valid(st)
    ensures var st1 := GetFaGflags(tree, st, id);
      && AdoptedGlobals(tree, st, st1, id)
      && ScopeOf(st1, id) == ScopeOf(st, id).(gflags := ScopeOf(st1, id).gflags)
  {
    var st1 := GetFaGflags(tree, st, id);
    var c := Chain(tree, id);
    if tree[id].parent.Some? {
      var g := ScopeOf(st1, id).gflags.value;
      assert id in c;
      forall n | n !in c
        ensures ScopeOf(st1, n) == ScopeOf(st, n)
      {
        if n in st.scopes {} else {}
      }
    } else {
      assert c == [id];
    }
  }

  /** Changing only `id`'s local or merged field after `getFaGflags`
      keeps the adoption described. */
  lemma AdoptedKept(tree: Tree, st: FlagState, st1: FlagState, st2: FlagState, id: NodeId)
    requires Rooted(tree, id) && AdoptedGlobals(tree, st, st1, id)
    requires forall n :: n != id ==> ScopeOf(st2, n) == ScopeOf(st1, n)
    requires ScopeOf(st2, id).gflags == ScopeOf(st1, id).gflags
    requires ScopeOf(st1, id).gflags.Some? && ScopeOf(st1, id).gflags.value in st1.sets ==>
               var g := ScopeOf(st1, id).gflags.value;
               g in st2.sets && st2.sets[g] == st1.sets[g]
    ensures AdoptedGlobals(tree, st, st2, id)
  {
  }

  /** `LocalFlags`: the node's own local set, made on first use. */
  function LocalFlags(tree: Tree, st: FlagState, id: NodeId): (r: (FlagState, SetId))
    requires Rooted(tree, id) && Valid(st) && Private(st)
    ensures Valid(r.0) && Private(r.0)
    ensures ScopeOf(r.0, id).lflags == Some(r.1)
    ensures ScopeOf(st, id).lflags.Some? ==> Some(r.1) == ScopeOf(st, id).lflags
    ensures ScopeOf(st, id).lflags.None? ==> r.1 !in st.sets && SetOf(r.0, r.1) == Empty
    ensures forall s :: s in st.sets ==> s in r.0.sets && r.0.sets[s] == st.sets[s]
    ensures ScopeOf(r.0, id).flags == ScopeOf(st, id).flags
    ensures AdoptedGlobals(tree, st, r.0, id)
  {
    var st1 := GetFaGflags(tree, st, id);
    FaKeeps(tree, st, id);
    FaAdopts(tree, st, id);
    match ScopeOf(st1, id).lflags
    case Some(l) => (st1, l)
    case None =>
      var r := NewLocal(st1, id);
      AdoptedKept(tree, st, st1, r.0, id);
      r
  }

  /** pflag's `AddFlagSet` on a possibly nil set: nil adds nothing. */
  function AddOptional(dst: FlagSet, st: FlagState, field: Option<SetId>): (r: FlagSet)
    ensures r.formal.Keys == dst.formal.Keys + NamesIn(st, field)
    ensures forall n :: n in dst.formal ==> r.formal[n] == dst.formal[n]
    ensures NamesIn(st, field) <= dst.formal.Keys ==> r == dst
    ensures r == AddFlagSet(dst, SetIn(st, field))
  {
    match field
    case None => dst
    case Some(s) => AddFlagSet(dst, SetOf(st, s))
  }

  /** The merging half of `Flags`, once the global set has been adopted. */
  function MergeInto(st1: FlagState, id: NodeId): (r: (FlagState, SetId))
    requires Valid(st1) && Private(st1)
    ensures Valid(r.0) && Private(r.0)
    ensures ScopeOf(r.0, id) == ScopeOf(st1, id).(flags := Some(r.1))
    ensures forall n :: n != id ==> ScopeOf(r.0, n) == ScopeOf(st1, n)
    ensures ScopeOf(st1, id).flags.Some? ==> Some(r.1) == ScopeOf(st1, id).flags
    ensures ScopeOf(st1, id).flags.None? ==> r.1 !in st1.sets
    ensures NamesIn(r.0, Some(r.1)) ==
              NamesIn(st1, ScopeOf(st1, id).flags) + NamesIn(st1, ScopeOf(st1, id).lflags) + NamesIn(st1, ScopeOf(st1, id).gflags)
    ensures NamesIn(r.0, ScopeOf(r.0, id).lflags) == NamesIn(st1, ScopeOf(st1, id).lflags)
    ensures NamesIn(r.0, ScopeOf(r.0, id).gflags) == NamesIn(st1, ScopeOf(st1, id).gflags)
    ensures ScopeOf(st1, id).flags.Some? ==>
              var before := SetOf(st1, ScopeOf(st1, id).flags.value).formal;
              forall n :: n in before ==> n in SetOf(r.0, r.1).formal && SetOf(r.0, r.1).formal[n] == before[n]
    ensures forall s :: s in st1.sets && s != r.1 ==> s in r.0.sets && r.0.sets[s] == st1.sets[s]
    ensures var sc := ScopeOf(st1, id);
      SetOf(r.0, r.1) == AddFlagSet(AddFlagSet(SetIn(st1, sc.flags), SetIn(st1, sc.lflags)), SetIn(st1, sc.gflags))
  {
    var (st2, f) := match ScopeOf(st1, id).flags
      case Some(f) => (st1, f)
      case None => NewMerged(st1, id);
    var sc := ScopeOf(st2, id);
    var m := AddOptional(AddOptional(SetOf(st2, f), st2, sc.lflags), st2, sc.gflags);
    var r := st2.(sets := st2.sets[f := m]);
    MergeKeeps(st2, r, f, id, m);
    MergeSources(st1, st2, id, f);
    (r, f)
  }

  /** Making the merged set, if needed, leaves the sets merged from as
      they were. */
  lemma MergeSources(st1: FlagState, st2: FlagState, id: NodeId, f: SetId)
    requires Valid(st1) && ScopeOf(st2, id) == ScopeOf(st1, id).(flags := Some(f))
    requires ScopeOf(st1, id).flags.Some? ==> st2 == st1
    requires ScopeOf(st1, id).flags.None? ==> f !in st1.sets && st2.sets == st1.sets[f := Empty]
    ensures SetOf(st2, f) == SetIn(st1, ScopeOf(st1, id).flags)
    ensures SetIn(st2, ScopeOf(st2, id).lflags) == SetIn(st1, ScopeOf(st1, id).lflags)
    ensures SetIn(st2, ScopeOf(st2, id).gflags) == SetIn(st1, ScopeOf(st1, id).gflags)
    ensures NamesIn(st2, ScopeOf(st2, id).lflags) == NamesIn(st1, ScopeOf(st1, id).lflags)
    ensures NamesIn(st2, ScopeOf(st2, id).gflags) == NamesIn(st1, ScopeOf(st1, id).gflags)
  {
    HeldInSets(st1, id);
  }

  /** `Flags`: the node's merged set, made on first use, to which every
      local and global flag it lacks is added by name. */
  function Flags(tree: Tree, st: FlagState, id: NodeId): (r: (FlagState, SetId))
    requires Rooted(tree, id) && Valid(st) && Private(st)
    ensures Valid(r.0) && Private(r.0)
    ensures ScopeOf(r.0, id).flags == Some(r.1)
    ensures ScopeOf(st, id).flags.Some? ==> Some(r.1) == ScopeOf(st, id).flags
    ensures ScopeOf(st, id).flags.None? ==> r.1 !in st.sets
    ensures NamesIn(r.0, Some(r.1)) ==
              NamesIn(st, ScopeOf(st, id).flags) + NamesIn(r.0, ScopeOf(r.0, id).lflags) + NamesIn(r.0, ScopeOf(r.0, id).gflags)
    ensures ScopeOf(st, id).flags.Some? ==>
              var before := SetOf(st, ScopeOf(st, id).flags.value).formal;
              forall n :: n in before ==> n in SetOf(r.0, r.1).formal && SetOf(r.0, r.1).formal[n] == before[n]
    ensures ScopeOf(r.0, id).lflags == ScopeOf(st, id).lflags
    ensures forall s :: s in st.sets && s != r.1 ==> s in r.0.sets && r.0.sets[s] == st.sets[s]
    ensures tree[id].parent.Some? ==>
              && ScopeOf(r.0, id).gflags.Some?
              && forall n :: n in Chain(tree, id) ==> ScopeOf(r.0, n).gflags == ScopeOf(r.0, id).gflags
    ensures AdoptedGlobals(tree, st, r.0, id)
    ensures var sc := ScopeOf(r.0, id);
      SetOf(r.0, r.1) == AddFlagSet(AddFlagSet(SetIn(st, ScopeOf(st, id).flags), SetIn(r.0, sc.lflags)), SetIn(r.0, sc.gflags))
  {
    var st1 := GetFaGflags(tree, st, id);
    FlagsFrame(tree, st, id);
    FlagsSetsKept(tree, st, id);
    FlagsNames(tree, st, id);
    FlagsContents(tree, st, id);
    MergeInto(st1, id)
  }

  /** The sets `Flags` leaves alone, and the invariants it keeps. */
  lemma FlagsSetsKept(tree: Tree, st: FlagState, id: NodeId)
    requires Rooted(tree, id) && Valid(st) && Private(st)
    ensures var st1 := GetFaGflags(tree, st, id);
      && Valid(st1) && Private(st1)
      && var r := MergeInto(st1, id);
      && Valid(r.0) && Private(r.0)
      && (ScopeOf(st, id).flags.None? ==> r.1 !in st.sets)
      && (forall s :: s in st.sets && s != r.1 ==> s in r.0.sets && r.0.sets[s] == st.sets[s])
  {
    FaKeeps(tree, st, id);
  }

  /** The handles `Flags` leaves: its frame. */
  lemma FlagsFrame(tree: Tree, st: FlagState, id: NodeId)
    requires Rooted(tree, id) && Valid(st) && Private(st)
    ensures var st1 := GetFaGflags(tree, st, id);
      && Valid(st1) && Private(st1)
      && var r := MergeInto(st1, id);
      && ScopeOf(r.0, id).flags == Some(r.1)
      && (ScopeOf(st, id).flags.Some? ==> Some(r.1) == ScopeOf(st, id).flags)
      && ScopeOf(r.0, id).lflags == ScopeOf(st, id).lflags
      && (tree[id].parent.Some? ==>
            && ScopeOf(r.0, id).gflags.Some?
            && forall n :: n in Chain(tree, id) ==> ScopeOf(r.0, n).gflags == ScopeOf(r.0, id).gflags)
      && AdoptedGlobals(tree, st, r.0, id)
  {
    FaKeeps(tree, st, id);
    MergeAdopts(tree, st, id);
  }

  /** The names of the set `Flags` returns, and the entries it keeps. */
  lemma FlagsNames(tree: Tree, st: FlagState, id: NodeId)
    requires Rooted(tree, id) && Valid(st) && Private(st)
    ensures var st1 := GetFaGflags(tree, st, id);
      && Valid(st1) && Private(st1)
      && var r := MergeInto(st1, id);
      && var sc := ScopeOf(r.0, id);
      && NamesIn(r.0, Some(r.1)) ==
           NamesIn(st, ScopeOf(st, id).flags) + NamesIn(r.0, sc.lflags) + NamesIn(r.0, sc.gflags)
      && (ScopeOf(st, id).flags.Some? ==>
            var before := SetOf(st, ScopeOf(st, id).flags.value).formal;
            forall n :: n in before ==> n in SetOf(r.0, r.1).formal && SetOf(r.0, r.1).formal[n] == before[n])
  {
    FlagsContents(tree, st, id);
    var r := MergeInto(GetFaGflags(tree, st, id), id);
    var sc := ScopeOf(r.0, id);
    NamesOfSet(st, ScopeOf(st, id).flags);
    NamesOfSet(r.0, sc.lflags);
    NamesOfSet(r.0, sc.gflags);
    NamesOfSet(r.0, Some(r.1));
  }

  /** The set `Flags` returns: the earlier merged set with the local set and
      then the global set added. */
  lemma FlagsContents(tree: Tree, st: FlagState, id: NodeId)
    requires Rooted(tree, id) && Valid(st) && Private(st)
    ensures var st1 := GetFaGflags(tree, st, id);
      && Valid(st1) && Private(st1)
      && var r := MergeInto(st1, id);
      && var sc := ScopeOf(r.0, id);
      && SetOf(r.0, r.1) == AddFlagSet(AddFlagSet(SetIn(st, ScopeOf(st, id).flags), SetIn(r.0, sc.lflags)), SetIn(r.0, sc.gflags))
  {
    FaKeeps(tree, st, id);
    MergeAdopts(tree, st, id);
  }

  /** The merge keeps what `getFaGflags` did, and the sets it merges from
      hold after the merge what they held before it. */
  lemma MergeAdopts(tree: Tree, st: FlagState, id: NodeId)
    requires Rooted(tree, id) && Valid(st) && Private(st)
    ensures var st1 := GetFaGflags(tree, st, id);
      && Valid(st1) && Private(st1)
      && var r := MergeInto(st1, id);
      && AdoptedGlobals(tree, st, r.0, id)
      && var sc := ScopeOf(r.0, id);
      && SetIn(st1, ScopeOf(st1, id).flags) == SetIn(st, ScopeOf(st, id).flags)
      && SetIn(st1, ScopeOf(st1, id).lflags) == SetIn(r.0, sc.lflags)
      && SetIn(st1, ScopeOf(st1, id).gflags) == SetIn(r.0, sc.gflags)
  {
    var st1 := GetFaGflags(tree, st, id);
    FaKeeps(tree, st, id);
    FaAdopts(tree, st, id);
    var r := MergeInto(st1, id);
    var sc := ScopeOf(r.0, id);
    assert sc.lflags != Some(r.1) && sc.gflags != Some(r.1);
    HeldInSets(st1, id);
    HeldInSets(st, id);
    AdoptedKept(tree, st, st1, r.0, id);
  }

  lemma MergeKeeps(st2: FlagState, r: FlagState, f: SetId, id: NodeId, m: FlagSet)
    requires Valid(st2) && Private(st2) && ScopeOf(st2, id).flags == Some(f)
    requires r == st2.(sets := st2.sets[f := m])
    ensures Valid(r) && Private(r)
    ensures NamesIn(r, ScopeOf(r, id).lflags) == NamesIn(st2, ScopeOf(st2, id).lflags)
    ensures NamesIn(r, ScopeOf(r, id).gflags) == NamesIn(st2, ScopeOf(st2, id).gflags)
  {
    assert forall n :: ScopeOf(r, n) == ScopeOf(st2, n);
  }

  /** Once a chain holds one global set, `getGflags` on it changes nothing. */
  lemma GetGflagsFixpoint(tree: Tree, st: FlagState, id: NodeId, g: SetId)
    requires Rooted(tree, id) && Valid(st)
    requires forall n :: n in Chain(tree, id) ==> ScopeOf(st, n).gflags == Some(g)
    ensures GetGflags(tree, st, id) == (st, g)
  {
    var (s2, g2) := GetGflags(tree, st, id);
    var c := Chain(tree, id);
    assert c[|c| - 1] in c;
    forall n | n in c
      ensures n in st.scopes && s2.scopes[n] == st.scopes[n]
    {
      assert ScopeOf(st, n).gflags.Some?;
    }
    assert s2.scopes == st.scopes;
  }

  lemma GetFaGflagsFixpoint(tree: Tree, st: FlagState, id: NodeId)
    requires Rooted(tree, id) && Valid(st)
    requires tree[id].parent.Some? ==>
               && ScopeOf(st, id).gflags.Some?
               && forall n :: n in Chain(tree, id) ==> ScopeOf(st, n).gflags == ScopeOf(st, id).gflags
    ensures GetFaGflags(tree, st, id) == st
  {
    if tree[id].parent.Some? {
      var p := tree[id].parent.value;
      var g := ScopeOf(st, id).gflags.value;
      ParentChain(tree, id);
      assert forall n :: n in Chain(tree, p) ==> n in Chain(tree, id);
      GetGflagsFixpoint(tree, st, p, g);
      assert id in st.scopes;
      assert st.scopes[id := ScopeOf(st, id).(gflags := Some(g))] == st.scopes;
    }
  }

  /** A second `Flags` without new registrations changes nothing: same set,
      same members, same state. */
  lemma FlagsIdempotent(tree: Tree, st: FlagState, id: NodeId)
    requires Rooted(tree, id) && Valid(st) && Private(st)
    ensures var (s1, f) := Flags(tree, st, id);
      Flags(tree, s1, id) == (s1, f)
  {
    var (s1, f) := Flags(tree, st, id);
    GetFaGflagsFixpoint(tree, s1, id);
    MergeSettled(s1, id);
  }

  /** Merging into a merged set that already has every local and global
      name changes nothing. */
  lemma MergeSettled(st: FlagState, id: NodeId)
    requires Valid(st) && Private(st) && ScopeOf(st, id).flags.Some?
    requires NamesIn(st, ScopeOf(st, id).lflags) + NamesIn(st, ScopeOf(st, id).gflags) <= NamesIn(st, ScopeOf(st, id).flags)
    ensures MergeInto(st, id) == (st, ScopeOf(st, id).flags.value)
  {
    var f := ScopeOf(st, id).flags.value;
    var sc := ScopeOf(st, id);
    var m1 := AddOptional(SetOf(st, f), st, sc.lflags);
    assert m1 == SetOf(st, f);
    HeldInSets(st, id);
    assert f in st.sets;
    assert st.sets[f := SetOf(st, f)] == st.sets;
  }

  /** What a merge of `local`, then `global`, into `before` holds: entries
      already there stay; a new name brings the local flag if the local set
      defines it, else the global one; shorthands already bound stay, and
      the free shorthands of added flags are bound to those flags. */
  lemma MergedEntries(before: FlagSet, local: FlagSet, global: FlagSet)
    ensures var mid := AddFlagSet(before, local);
      var r := AddFlagSet(mid, global);
      && r.formal.Keys == before.formal.Keys + local.formal.Keys + global.formal.Keys
      && (forall n :: n in before.formal ==> r.formal[n] == before.formal[n])
      && (forall n :: n in local.formal && n !in before.formal ==> r.formal[n] == local.formal[n])
      && (forall n :: n in global.formal && n !in before.formal && n !in local.formal ==>
            r.formal[n] == global.formal[n])
      && (forall c :: c in before.shorthands ==> c in r.shorthands && r.shorthands[c] == before.shorthands[c])
      && (forall c :: c in AddedShorthands(before, local) ==> c in r.shorthands && r.shorthands[c] == local.shorthands[c])
      && (forall c :: c in AddedShorthands(mid, global) ==> c in r.shorthands && r.shorthands[c] == global.shorthands[c])
      && r.shorthands.Keys == before.shorthands.Keys + AddedShorthands(before, local) + AddedShorthands(mid, global)
  {
    var mid := AddFlagSet(before, local);
    assert forall c :: c in AddedShorthands(before, local) ==> c in mid.shorthands;
  }

  /** After the first `Flags` on a node, a name its local set defines is
      bound in the merged set to the local flag, so the scan treats
      `--name` there as the local flag says: taking a value or not. */
  lemma MergedKeepsLocalFlag(tree: Tree, st: FlagState, id: NodeId, n: string)
    requires Rooted(tree, id) && Valid(st) && Private(st) && ScopeOf(st, id).flags.None?
    ensures var (s1, f) := Flags(tree, st, id);
      var local := SetIn(s1, ScopeOf(s1, id).lflags);
      n in local.formal ==>
        && n in SetOf(s1, f).formal && SetOf(s1, f).formal[n] == local.formal[n]
        && (HasNoOptDefVal(n, SetOf(s1, f)) <==> HasNoOptDefVal(n, local))
  {
    var (s1, f) := Flags(tree, st, id);
    var sc := ScopeOf(s1, id);
    MergedEntries(Empty, SetIn(s1, sc.lflags), SetIn(s1, sc.gflags));
  }

  /** After `Flags` on a non-root node, its merged set has every flag of
      its tree's global set and of its own local set. */
  lemma MergedSeesLocalAndTreeGlobals(tree: Tree, st: FlagState, id: NodeId)
    requires Rooted(tree, id) && Valid(st) && Private(st) && tree[id].parent.Some?
    ensures var (s1, f) := Flags(tree, st, id);
      && ScopeOf(s1, Top(tree, id)).gflags.Some?
      && NamesIn(s1, ScopeOf(s1, Top(tree, id)).gflags) <= NamesIn(s1, Some(f))
      && NamesIn(s1, ScopeOf(s1, id).lflags) <= NamesIn(s1, Some(f))
  {
    var c := Chain(tree, id);
    assert c[|c| - 1] in c;
  }

  /** Under privacy, a node's local set is held by no other field of any
      node. */
  lemma LocalUnshared(st: FlagState, a: NodeId, l: SetId, b: NodeId)
    requires Private(st) && ScopeOf(st, a).lflags == Some(l)
    ensures ScopeOf(st, b).gflags != Some(l) && ScopeOf(st, b).flags != Some(l)
    ensures b != a ==> ScopeOf(st, b).lflags != Some(l)
  {
  }

  /** A state that differs from `st` at most in set `l` agrees with it on
      every set other than `l`. */
  lemma OnlySetChanged(st: FlagState, r: FlagState, l: SetId, field: Option<SetId>)
    requires Valid(st) && r.scopes == st.scopes
    requires forall s :: s in st.sets && s != l ==> s in r.sets && r.sets[s] == st.sets[s]
    requires field.Some? ==> field.value in st.sets && field.value != l
    ensures NamesIn(r, field) == NamesIn(st, field)
    ensures field.Some? ==> SetOf(r, field.value) == SetOf(st, field.value)
  {
  }

  /** Changing only a node's local set leaves every set another node holds
      as it was. */
  lemma OtherNodesKept(st: FlagState, r: FlagState, a: NodeId, l: SetId)
    requires Valid(st) && Private(st) && ScopeOf(st, a).lflags == Some(l)
    requires forall s :: s in st.sets && s != l ==> s in r.sets && r.sets[s] == st.sets[s]
    ensures forall b, s :: b != a && s in Held(ScopeOf(st, b)) ==> SetOf(r, s) == SetOf(st, s)
  {
    forall b, s | b != a && s in Held(ScopeOf(st, b))
      ensures SetOf(r, s) == SetOf(st, s)
    {
      HeldInSets(st, b);
      LocalUnshared(st, a, l, b);
      HeldAvoids(ScopeOf(st, b), l, s);
    }
  }

  /** A set none of whose fields points at `l` does not hold `l`. */
  lemma HeldAvoids(sc: Scope, l: SetId, s: SetId)
    requires s in Held(sc)
    requires sc.lflags != Some(l) && sc.gflags != Some(l) && sc.flags != Some(l)
    ensures s != l
  {
  }

  /** Registering a flag in one node's local set changes no set that any
      other node holds, nor the global or merged set of the node itself. */
  lemma LocalFlagStaysLocal(st: FlagState, a: NodeId, l: SetId, f: Flag)
    requires Valid(st) && Private(st) && ScopeOf(st, a).lflags == Some(l)
    requires Register(st, l, f).Success?
    ensures var r := Register(st, l, f).value;
      && (forall b, s :: b != a && s in Held(ScopeOf(st, b)) ==> SetOf(r, s) == SetOf(st, s))
      && NamesIn(r, ScopeOf(r, a).gflags) == NamesIn(st, ScopeOf(st, a).gflags)
      && NamesIn(r, ScopeOf(r, a).flags) == NamesIn(st, ScopeOf(st, a).flags)
  {
    var r := Register(st, l, f).value;
    OtherNodesKept(st, r, a, l);
    HeldInSets(st, a);
    LocalUnshared(st, a, l, a);
    OnlySetChanged(st, r, l, ScopeOf(st, a).gflags);
    OnlySetChanged(st, r, l, ScopeOf(st, a).flags);
  }
}

=== FILE: flagsets.dfy ===
/** The slice of a pflag `FlagSet` the core depends on: which flags are
    defined, under which long name and shorthand, and whether each one has a
    no-option default (is boolean-like). Flag values and their parsing are not
    modelled. */
module FlagSets {
  import opened Wrappers

  /** A defined flag. A non-empty `noOptDefVal` lets the flag stand alone
      (`--verbose`) instead of taking the next argument as its value. */
  datatype Flag = Flag(name: string, shorthand: string, noOptDefVal: string)

  /** Flags by long name, and by their one-character shorthand. */
  datatype FlagSet = FlagSet(formal: map<string, Flag>, shorthands: map<char, Flag>)

  const Empty: FlagSet := FlagSet(map[], map[])

  function Lookup(fs: FlagSet, name: string): Option<Flag> {
    if name in fs.formal then Some(fs.formal[name]) else None
  }

  function ShorthandLookup(fs: FlagSet, c: char): Option<Flag> {
    if c in fs.shorthands then Some(fs.shorthands[c]) else None
  }

  /** Why pflag refuses to define a flag (it panics in each case). */
  datatype FlagError =
    | Redefined(name: string)
    | ShorthandTooLong(shorthand: string)
    | ShorthandRedefined(c: char)

  /** Defining a flag: its name and its shorthand must both be new. */
  function AddFlag(fs: FlagSet, f: Flag): (r: Result<FlagSet, FlagError>)
    ensures r.Success? <==>
              && f.name !in fs.formal
              && |f.shorthand| <= 1
              && (|f.shorthand| == 1 ==> f.shorthand[0] !in fs.shorthands)
    ensures r.Success? ==> Lookup(r.value, f.name) == Some(f)
    ensures r.Success? ==> r.value.formal.Keys == fs.formal.Keys + {f.name}
    ensures r.Success? ==> forall n :: n in fs.formal ==> r.value.formal[n] == fs.formal[n]
    ensures r.Success? && |f.shorthand| == 1 ==> ShorthandLookup(r.value, f.shorthand[0]) == Some(f)
    ensures r.Success? ==> forall c :: c in fs.shorthands ==> c in r.value.shorthands && r.value.shorthands[c] == fs.shorthands[c]
    ensures r.Success? && |f.shorthand| == 0 ==> r.value.shorthands == fs.shorthands
    ensures r.Success? && |f.shorthand| == 1 ==> r.value.shorthands.Keys == fs.shorthands.Keys + {f.shorthand[0]}
  {
    if f.name in fs.formal then Failure(Redefined(f.name))
    else if |f.shorthand| > 1 then Failure(ShorthandTooLong(f.shorthand))
    else if |f.shorthand| == 1 && f.shorthand[0] in fs.shorthands then Failure(ShorthandRedefined(f.shorthand[0]))
    else
      var formal := fs.formal[f.name := f];
      if |f.shorthand| == 0 then Success(FlagSet(formal, fs.shorthands))
      else Success(FlagSet(formal, fs.shorthands[f.shorthand[0] := f]))
  }

  /** pflag's `AddFlagSet`: every flag of `src` whose name `dst` lacks is
      added; flags already in `dst` are never replaced. */
  function AddFlagSet(dst: FlagSet, src: FlagSet): (r: FlagSet)
    ensures r.formal.Keys == dst.formal.Keys + src.formal.Keys
    ensures forall n :: n in dst.formal ==> r.formal[n] == dst.formal[n]
    ensures forall n :: n in src.formal && n !in dst.formal ==> r.formal[n] == src.formal[n]
    ensures forall c :: c in dst.shorthands ==> c in r.shorthands && r.shorthands[c] == dst.shorthands[c]
    ensures r.shorthands.Keys == dst.shorthands.Keys + AddedShorthands(dst, src)
    ensures forall c :: c in AddedShorthands(dst, src) ==> c in r.shorthands && r.shorthands[c] == src.shorthands[c]
    ensures src.formal.Keys <= dst.formal.Keys ==> r == dst
  {
    var formal := map n | n in dst.formal.Keys + src.formal.Keys ::
                    if n in dst.formal then dst.formal[n] else src.formal[n];
    var shorthands := map c | c in dst.shorthands.Keys + AddedShorthands(dst, src) ::
                        if c in dst.shorthands then dst.shorthands[c] else src.shorthands[c];
    assert src.formal.Keys <= dst.formal.Keys ==> formal == dst.formal && shorthands == dst.shorthands;
    FlagSet(formal, shorthands)
  }

  /** Shorthands of the flags `AddFlagSet` adds that `dst` does not use yet. */
  function AddedShorthands(dst: FlagSet, src: FlagSet): set<char> {
    set c | c in src.shorthands && c !in dst.shorthands
                && src.shorthands[c].name in src.formal && src.shorthands[c].name !in dst.formal
  }
}

=== FILE: resolve.dfy ===
/** Resolution of an argument list to a command (`innerFind`, `Find`):
    depth-first along one path, stripping flags at each level with that
    level's merged flags, no backtracking. */
module Resolve {
  import opened Wrappers
  import opened FlagSets
  import opened Tokenizer
  import opened Commands
  import opened FlagScope

  /** How resolution ends. `Help` carries no residual arguments. */
  datatype Outcome =
    | Resolved(node: NodeId, residual: seq<string>)
    | NotFound(node: NodeId)
    | Help(node: NodeId)
  {
    function Node(): NodeId {
      match this
      case Resolved(n, _) => n
      case NotFound(n) => n
      case Help(n) => n
    }
  }

  /** Every listed child exists and every parent chain reaches a root. */
  predicate Resolvable(tree: Tree) {
    ChildrenKnown(tree) && forall id :: id in tree ==> Rooted(tree, id)
  }

  /** `stripFlags(args, c)`, including its call of `c.Flags()`, which is
      skipped for an empty list. */
  function Strip(tree: Tree, st: FlagState, id: NodeId, args: seq<string>): (r: (FlagState, seq<string>))
    requires Rooted(tree, id) && Valid(st) && Private(st)
    ensures Valid(r.0) && Private(r.0)
    ensures |args| == 0 ==> r == (st, [])
    ensures Subsequence(r.1, args) && |r.1| <= |args|
    ensures forall i :: 0 <= i < |r.1| ==> Positional(r.1[i])
    ensures |args| > 0 ==> var (s1, f) := Flags(tree, st, id);
              r.0 == s1 && r.1 == StripFlags(args, SetOf(s1, f))
  {
    if |args| == 0 then (st, [])
    else
      var (st1, f) := Flags(tree, st, id);
      StripFlagsKeepsPositionals(args, SetOf(st1, f));
      (st1, StripFlags(args, SetOf(st1, f)))
  }

  /** Stripping the same list again at the same node, with nothing
      registered in between, gives the same positionals and state. */
  lemma StripAgain(tree: Tree, st: FlagState, id: NodeId, args: seq<string>)
    requires Rooted(tree, id) && Valid(st) && Private(st)
    ensures var (s1, pos) := Strip(tree, st, id, args);
      Strip(tree, s1, id, args) == (s1, pos)
  {
    if |args| > 0 {
      FlagsIdempotent(tree, st, id);
    }
  }

  /** `innerFind`. */
  function InnerFind(tree: Tree, st: FlagState, id: NodeId, args: seq<string>): (r: (FlagState, Outcome))
    requires Resolvable(tree) && id in tree && Valid(st) && Private(st)
    requires |args| > 0
    decreases |args|
    ensures Valid(r.0) && Private(r.0) && r.1.Node() in tree
    ensures r.1.Resolved? ==> Strip(tree, r.0, r.1.node, r.1.residual).1 == []
  {
    if args[0] != Name(tree[id].use) then (st, NotFound(id))
    else
      var (st1, pos) := Strip(tree, st, id, args[1..]);
      if |pos| > 0 && pos[0] == "help" then (st1, Help(id))
      else if |pos| == 0 then
        StripAgain(tree, st, id, args[1..]);
        (st1, Resolved(id, args[1..]))
      else
        match FindSubcmd(tree, id, pos[0])
        case None => (st1, NotFound(id))
        case Some(c) => InnerFind(tree, st1, c, args[1..])
  }

  /** `Find`: the outcome of `innerFind`, unchanged. The help branch of the
      source compares two freshly made errors and is never taken. */
  function Find(tree: Tree, st: FlagState, root: NodeId, args: seq<string>): (r: (FlagState, Outcome))
    requires Resolvable(tree) && root in tree && Valid(st) && Private(st)
    requires |args| > 0
    ensures Valid(r.0) && Private(r.0) && r.1.Node() in tree
    ensures args[0] != Name(tree[root].use) ==> r == (st, NotFound(root))
    ensures r.1.Resolved? ==> Strip(tree, r.0, r.1.node, r.1.residual).1 == []
  {
    InnerFind(tree, st, root, args)
  }

  /** The names of the nodes of `path`, in order. */
  function NamesAlong(tree: Tree, path: seq<NodeId>): (r: seq<string>)
    requires forall i :: 0 <= i < |path| ==> path[i] in tree
    ensures |r| == |path|
  {
    if |path| == 0 then [] else [Name(tree[path[0]].use)] + NamesAlong(tree, path[1..])
  }

  /** No child of `n` is named `tok`. */
  predicate NoChildNamed(tree: Tree, n: NodeId, tok: string)
    requires ChildrenKnown(tree) && n in tree
  {
    forall c :: c in tree[n].commands ==> Name(tree[c].use) != tok
  }

  lemma {:induction false} SubsequenceMember<T>(a: seq<T>, b: seq<T>, x: T)
    requires Subsequence(a, b) && x in a
    ensures x in b
    decreases |b|
  {
    if a[0] == b[0] && Subsequence(a[1..], b[1..]) {
      if x != a[0] {
        SubsequenceMember(a[1..], b[1..], x);
      }
    } else {
      SubsequenceMember(a, b[1..], x);
    }
  }

  /** One step of `innerFind`: its outcome and the flag state it leaves,
      case by case. */
  lemma InnerFindStep(tree: Tree, st: FlagState, id: NodeId, args: seq<string>)
    requires Resolvable(tree) && id in tree && Valid(st) && Private(st)
    requires |args| > 0
    ensures args[0] != Name(tree[id].use) ==> InnerFind(tree, st, id, args) == (st, NotFound(id))
    ensures args[0] == Name(tree[id].use) ==>
      var (st1, pos) := Strip(tree, st, id, args[1..]);
      var r := InnerFind(tree, st, id, args);
      && (|pos| > 0 && pos[0] == "help" ==> r == (st1, Help(id)))
      && (|pos| == 0 ==> r == (st1, Resolved(id, args[1..])))
      && (|pos| > 0 && pos[0] != "help" ==>
            match FindSubcmd(tree, id, pos[0])
            case None => r == (st1, NotFound(id))
            case Some(c) => |args| > 1 && r == InnerFind(tree, st1, c, args[1..]))
  {
  }

  /** `path` runs down from `id`, ends at `node`, and every node before the
      last was named by the argument at its position. */
  ghost predicate TrailShape(tree: Tree, id: NodeId, args: seq<string>, path: seq<NodeId>, node: NodeId) {
    && DownPath(tree, id, path) && path[|path| - 1] == node
    && |path| <= |args|
    && NamesAlong(tree, path[..|path| - 1]) == args[..|path| - 1]
  }

  /** Why resolution stopped at the end of `path`: success leaves the
      residual after the names along the path; help and not-found are
      explained by a later positional argument or by a name mismatch at the
      last node. */
  ghost predicate TrailExplains(tree: Tree, args: seq<string>, path: seq<NodeId>, r: Outcome)
    requires ChildrenKnown(tree)
    requires 0 < |path| <= |args|
    requires forall i :: 0 <= i < |path| ==> path[i] in tree
    requires path[|path| - 1] == r.Node()
  {
    && (r.Resolved? ==> args == NamesAlong(tree, path) + r.residual)
    && (r.Help? ==> args[|path| - 1] == Name(tree[r.node].use) && "help" in args[|path|..])
    && (r.NotFound? ==>
          || args[|path| - 1] != Name(tree[r.node].use)
          || exists tok :: tok in args[|path|..] && Positional(tok) && tok != "help" && NoChildNamed(tree, r.node, tok))
  }

  /** The path resolution took, and why it stopped where it did. */
  lemma {:induction false} ResolutionTrail(tree: Tree, st: FlagState, id: NodeId, args: seq<string>)
    returns (path: seq<NodeId>)
    requires Resolvable(tree) && id in tree && Valid(st) && Private(st)
    requires |args| > 0
    decreases |args|
    ensures var r := InnerFind(tree, st, id, args).1;
      TrailShape(tree, id, args, path, r.Node()) && TrailExplains(tree, args, path, r)
  {
    if args[0] == Name(tree[id].use) {
      var (st1, pos) := Strip(tree, st, id, args[1..]);
      if |pos| > 0 && pos[0] != "help" && FindSubcmd(tree, id, pos[0]).Some? {
        var c := FindSubcmd(tree, id, pos[0]).value;
        InnerFindStep(tree, st, id, args);
        var rest := ResolutionTrail(tree, st1, c, args[1..]);
        path := [id] + rest;
        TrailDescends(tree, st, id, args, c, rest);
        return;
      }
    }
    path := [id];
    TrailStops(tree, st, id, args);
  }

  /** The cases in which resolution stops at the node it was given. */
  lemma TrailStops(tree: Tree, st: FlagState, id: NodeId, args: seq<string>)
    requires Resolvable(tree) && id in tree && Valid(st) && Private(st)
    requires |args| > 0
    requires args[0] == Name(tree[id].use) ==>
      var pos := Strip(tree, st, id, args[1..]).1;
      |pos| == 0 || pos[0] == "help" || FindSubcmd(tree, id, pos[0]).None?
    ensures var r := InnerFind(tree, st, id, args).1;
      TrailShape(tree, id, args, [id], r.Node()) && TrailExplains(tree, args, [id], r)
  {
    InnerFindStep(tree, st, id, args);
    var r := InnerFind(tree, st, id, args).1;
    if args[0] != Name(tree[id].use) {
      TrailAtStart(tree, id, args, r);
      return;
    }
    var pos := Strip(tree, st, id, args[1..]).1;
    if |pos| > 0 && pos[0] == "help" {
      SubsequenceMember(pos, args[1..], "help");
    } else if |pos| == 0 {
      HeadAndTail(args, Name(tree[id].use));
    } else {
      SubsequenceMember(pos, args[1..], pos[0]);
      assert Positional(pos[0]);
    }
    TrailAtStart(tree, id, args, r);
  }

  /** The case in which resolution goes on at a child: the child's trail,
      with the node in front. */
  lemma TrailDescends(tree: Tree, st: FlagState, id: NodeId, args: seq<string>, c: NodeId, rest: seq<NodeId>)
    requires Resolvable(tree) && id in tree && Valid(st) && Private(st)
    requires |args| > 1 && args[0] == Name(tree[id].use)
    requires var pos := Strip(tree, st, id, args[1..]).1;
      |pos| > 0 && pos[0] != "help" && FindSubcmd(tree, id, pos[0]) == Some(c)
    requires var r := InnerFind(tree, Strip(tree, st, id, args[1..]).0, c, args[1..]).1;
      TrailShape(tree, c, args[1..], rest, r.Node()) && TrailExplains(tree, args[1..], rest, r)
    ensures var r := InnerFind(tree, st, id, args).1;
      TrailShape(tree, id, args, [id] + rest, r.Node()) && TrailExplains(tree, args, [id] + rest, r)
  {
    InnerFindStep(tree, st, id, args);
    TrailPrepend(tree, id, c, args, rest, InnerFind(tree, st, id, args).1);
  }

  /** A child's trail over the tail of the list, with the node in front, is
      the node's trail over the whole list. */
  lemma TrailPrepend(tree: Tree, id: NodeId, c: NodeId, args: seq<string>, rest: seq<NodeId>, r: Outcome)
    requires ChildrenKnown(tree) && id in tree && c in tree[id].commands
    requires |args| > 1 && args[0] == Name(tree[id].use)
    requires TrailShape(tree, c, args[1..], rest, r.Node()) && TrailExplains(tree, args[1..], rest, r)
    ensures TrailShape(tree, id, args, [id] + rest, r.Node()) && TrailExplains(tree, args, [id] + rest, r)
  {
    var path := [id] + rest;
    TrailExtend(tree, id, c, args, rest, path);
    TrailCarry(tree, id, args, rest, path, r);
  }

  /** A trail that stops at the starting node. */
  lemma TrailAtStart(tree: Tree, id: NodeId, args: seq<string>, r: Outcome)
    requires ChildrenKnown(tree) && id in tree && |args| > 0 && r.Node() == id
    requires r.Resolved? ==> args == [Name(tree[id].use)] + r.residual
    requires r.Help? ==> args[0] == Name(tree[id].use) && "help" in args[1..]
    requires r.NotFound? ==>
      || args[0] != Name(tree[id].use)
      || exists tok :: tok in args[1..] && Positional(tok) && tok != "help" && NoChildNamed(tree, id, tok)
    ensures TrailShape(tree, id, args, [id], id) && TrailExplains(tree, args, [id], r)
  {
    assert [id][..0] == [];
    assert [id][1..] == [];
  }

  /** The child's explanation of the outcome carries over to the parent's
      longer path. */
  lemma TrailCarry(tree: Tree, id: NodeId, args: seq<string>, rest: seq<NodeId>, path: seq<NodeId>, r: Outcome)
    requires ChildrenKnown(tree) && id in tree && |args| > 1 && args[0] == Name(tree[id].use)
    requires 0 < |rest| <= |args| - 1 && path == [id] + rest
    requires forall i :: 0 <= i < |rest| ==> rest[i] in tree
    requires rest[|rest| - 1] == r.Node()
    requires TrailExplains(tree, args[1..], rest, r)
    requires args[|path| - 1] == args[1..][|rest| - 1]
    requires args[|path|..] == args[1..][|rest|..]
    ensures forall i :: 0 <= i < |path| ==> path[i] in tree
    ensures TrailExplains(tree, args, path, r)
  {
    assert forall i :: 0 <= i < |path| ==> path[i] in tree by {
      forall i | 0 <= i < |path| ensures path[i] in tree {
        if i > 0 { assert path[i] == rest[i - 1]; }
      }
    }
    if r.Resolved? {
      NamesAlongCons(tree, id, rest, path);
      HeadThenTail(args, Name(tree[id].use), NamesAlong(tree, rest), r.residual);
    }
  }

  lemma TrailExtend(tree: Tree, id: NodeId, c: NodeId, args: seq<string>, rest: seq<NodeId>, path: seq<NodeId>)
    requires id in tree && c in tree[id].commands && |args| > 1 && args[0] == Name(tree[id].use)
    requires DownPath(tree, c, rest) && |rest| <= |args| - 1 && path == [id] + rest
    requires NamesAlong(tree, rest[..|rest| - 1]) == args[1..][..|rest| - 1]
    ensures DownPath(tree, id, path) && path[|path| - 1] == rest[|rest| - 1] && |path| <= |args|
    ensures NamesAlong(tree, path[..|path| - 1]) == args[..|path| - 1]
    ensures args[|path| - 1] == args[1..][|rest| - 1]
    ensures args[|path|..] == args[1..][|rest|..]
  {
    assert path[1..] == rest;
    assert path[..|path| - 1] == [id] + rest[..|rest| - 1];
    assert args[..|path| - 1] == [args[0]] + args[1..][..|rest| - 1];
  }

  lemma NamesAlongCons(tree: Tree, id: NodeId, rest: seq<NodeId>, path: seq<NodeId>)
    requires id in tree
    requires forall i :: 0 <= i < |rest| ==> rest[i] in tree
    requires path == [id] + rest
    ensures NamesAlong(tree, path) == [Name(tree[id].use)] + NamesAlong(tree, rest)
  {
    assert path[1..] == rest;
  }

  lemma HeadAndTail(args: seq<string>, n: string)
    requires |args| > 0 && args[0] == n
    ensures args == [n] + args[1..]
  {
  }

  lemma HeadThenTail(args: seq<string>, n: string, nr: seq<string>, res: seq<string>)
    requires |args| > 1 && args[0] == n
    requires args[1..] == nr + res
    ensures args == [n] + nr + res
  {
    assert args == [args[0]] + args[1..];
  }

  /** Stripping that does not depend on which flags are defined. */
  lemma StripAnyFlags(tree: Tree, st: FlagState, id: NodeId, args: seq<string>, pos: seq<string>)
    requires Rooted(tree, id) && Valid(st) && Private(st)
    requires |args| > 0
    requires forall fs :: StripFlags(args, fs) == pos
    ensures Strip(tree, st, id, args).1 == pos
  {
  }

  /** The scans the examples below rely on, whatever flags are defined. */
  lemma ScanLoneFlag()
    ensures forall fs :: StripFlags(["-x"], fs) == []
  {
    forall fs ensures StripFlags(["-x"], fs) == [] {
      LoneShortFlagDropped("-x", fs);
    }
  }

  lemma ScanNameThenFlag()
    ensures forall fs :: StripFlags(["test2", "-x"], fs) == ["test2"]
  {
    forall fs ensures StripFlags(["test2", "-x"], fs) == ["test2"] {
      assert "test2"[..1] == "t";
      PositionalKept("test2", ["-x"], fs);
      LoneShortFlagDropped("-x", fs);
      assert ["test2", "-x"] == ["test2"] + ["-x"];
    }
  }

  lemma ScanOther()
    ensures forall fs :: StripFlags(["other"], fs) == ["other"]
  {
    forall fs ensures StripFlags(["other"], fs) == ["other"] {
      assert "other"[..1] == "o";
      PositionalKept("other", [], fs);
      assert ["other"] == ["other"] + [];
    }
  }

  lemma ScanHelp()
    ensures forall fs :: StripFlags(["help"], fs) == ["help"]
  {
    forall fs ensures StripFlags(["help"], fs) == ["help"] {
      assert "help"[..1] == "h";
      PositionalKept("help", [], fs);
      assert ["help"] == ["help"] + [];
    }
  }

  lemma ScanNameThenHelp()
    ensures forall fs :: StripFlags(["test2", "help"], fs) == ["test2", "help"]
  {
    forall fs ensures StripFlags(["test2", "help"], fs) == ["test2", "help"] {
      assert "test2"[..1] == "t" && "help"[..1] == "h";
      PositionalKept("test2", ["help"], fs);
      PositionalKept("help", [], fs);
      assert ["help"] == ["help"] + [];
      assert ["test2", "help"] == ["test2"] + ["help"];
    }
  }

  lemma ScanFlagThenName()
    ensures forall fs :: StripFlags(["--v=1", "test2"], fs) == ["test2"]
  {
    forall fs ensures StripFlags(["--v=1", "test2"], fs) == ["test2"] {
      assert "test2"[..1] == "t";
      PositionalKept("test2", [], fs);
      assert ["test2"] == ["test2"] + [];
      SelfContainedFlagDropped("--v=1", ["test2"], fs);
      assert ["--v=1", "test2"] == ["--v=1"] + ["test2"];
    }
  }

  lemma TestTreeResolvable()
    ensures Resolvable(TestTree())
  {
    var t := TestTree();
    assert t.Keys == {0, 1};
    TestTreeRooted();
    assert forall p, c :: p in t && c in t[p].commands ==> c in t;
  }

  /** At `test2`, `test2 -x` resolves there, keeping its flag. */
  lemma ResolvedAtChild(st: FlagState)
    requires Valid(st) && Private(st)
    ensures Resolvable(TestTree())
    ensures InnerFind(TestTree(), st, 1, ["test2", "-x"]).1 == Resolved(1, ["-x"])
  {
    var t := TestTree();
    var args := ["test2", "-x"];
    TestTreeResolvable();
    TestTreeNames();
    ScanLoneFlag();
    assert args[1..] == ["-x"];
    StripAnyFlags(t, st, 1, args[1..], []);
    InnerFindStep(t, st, 1, args);
  }

  /** `test1 test2 -x`: the subcommand is found and keeps its flag. */
  lemma FindSubcommandExample(st: FlagState)
    requires Valid(st) && Private(st)
    ensures Resolvable(TestTree())
    ensures Find(TestTree(), st, 0, ["test1", "test2", "-x"]).1 == Resolved(1, ["-x"])
  {
    var t := TestTree();
    var args := ["test1", "test2", "-x"];
    TestTreeResolvable();
    TestTreeNames();
    ScanNameThenFlag();
    assert args[1..] == ["test2", "-x"];
    StripAnyFlags(t, st, 0, args[1..], ["test2"]);
    InnerFindStep(t, st, 0, args);
    assert FindSubcmd(t, 0, "test2") == Some(1);
    assert args[1..] == ["test2", "-x"];
    ResolvedAtChild(Strip(t, st, 0, args[1..]).0);
  }

  /** `test1 other`: no child is named `other`, so resolution stops at the
      root. */
  lemma FindMissingExample(st: FlagState)
    requires Valid(st) && Private(st)
    ensures Resolvable(TestTree())
    ensures Find(TestTree(), st, 0, ["test1", "other"]).1 == NotFound(0)
  {
    var t := TestTree();
    var args := ["test1", "other"];
    TestTreeResolvable();
    TestTreeNames();
    ScanOther();
    assert args[1..] == ["other"];
    StripAnyFlags(t, st, 0, args[1..], ["other"]);
    InnerFindStep(t, st, 0, args);
    assert FindSubcmd(t, 0, "other") == None;
  }

  /** `test1 test2 help`: a `help` positional after the subcommand. */
  lemma FindHelpExample(st: FlagState)
    requires Valid(st) && Private(st)
    ensures Resolvable(TestTree())
    ensures Find(TestTree(), st, 0, ["test1", "test2", "help"]).1 == Help(1)
  {
    var t := TestTree();
    var args := ["test1", "test2", "help"];
    TestTreeResolvable();
    TestTreeNames();
    ScanNameThenHelp();
    assert args[1..] == ["test2", "help"];
    StripAnyFlags(t, st, 0, args[1..], ["test2", "help"]);
    InnerFindStep(t, st, 0, args);
    assert FindSubcmd(t, 0, "test2") == Some(1);
    HelpAtChild(Strip(t, st, 0, args[1..]).0);
  }

  /** At `test2`, `test2 help` asks for help there. */
  lemma HelpAtChild(st: FlagState)
    requires Valid(st) && Private(st)
    ensures Resolvable(TestTree())
    ensures InnerFind(TestTree(), st, 1, ["test2", "help"]).1 == Help(1)
  {
    var t := TestTree();
    var args := ["test2", "help"];
    TestTreeResolvable();
    TestTreeNames();
    ScanHelp();
    assert args[1..] == ["help"];
    StripAnyFlags(t, st, 1, args[1..], ["help"]);
    InnerFindStep(t, st, 1, args);
  }

  /** `test1 --v=1 test2`: the flag is stripped when choosing the child, but
      the child is then matched against the unstripped list, whose head is
      the flag, so resolution fails at the child. */
  lemma FlagBeforeSubcommandExample(st: FlagState)
    requires Valid(st) && Private(st)
    ensures Resolvable(TestTree())
    ensures Find(TestTree(), st, 0, ["test1", "--v=1", "test2"]).1 == NotFound(1)
  {
    var t := TestTree();
    var args := ["test1", "--v=1", "test2"];
    TestTreeResolvable();
    TestTreeNames();
    ScanFlagThenName();
    assert args[1..] == ["--v=1", "test2"];
    StripAnyFlags(t, st, 0, args[1..], ["test2"]);
    InnerFindStep(t, st, 0, args);
    assert FindSubcmd(t, 0, "test2") == Some(1);
    MismatchAtChild(Strip(t, st, 0, args[1..]).0);
  }

  /** At `test2`, a list that starts with a flag does not name it. */
  lemma MismatchAtChild(st: FlagState)
    requires Valid(st) && Private(st)
    ensures Resolvable(TestTree())
    ensures InnerFind(TestTree(), st, 1, ["--v=1", "test2"]).1 == NotFound(1)
  {
    TestTreeResolvable();
    TestTreeNames();
    InnerFindStep(TestTree(), st, 1, ["--v=1", "test2"]);
  }
}

=== FILE: text.dfy ===
/** The few Go `strings` operations the core relies on, over `seq<char>`.
    A `char` stands for one byte of a Go string. */
module Text {

  /** `strings.HasPrefix(s, p)`. */
  predicate HasPrefix(s: string, p: string) {
    |p| <= |s| && s[..|p|] == p
  }

  /** `strings.Contains(s, sub)`: `sub` occurs at some offset of `s`. */
  predicate Contains(s: string, sub: string)
    decreases |s|
  {
    HasPrefix(s, sub) || (|s| > 0 && Contains(s[1..], sub))
  }

  /** The parts separated by `sep`, as Go's `a + sep + b` chains build them. */
  function Join(parts: seq<string>, sep: string): string {
    if |parts| == 0 then ""
    else if |parts| == 1 then parts[0]
    else Join(parts[..|parts| - 1], sep) + sep + parts[|parts| - 1]
  }

  lemma {:induction false} ContainsExtended(s: string, t: string, sub: string)
    requires Contains(s, sub)
    ensures Contains(s + t, sub)
    decreases |s|
  {
    if HasPrefix(s, sub) {
      assert (s + t)[..|sub|] == s[..|sub|];
    } else {
      ContainsExtended(s[1..], t, sub);
      assert (s + t)[1..] == s[1..] + t;
    }
  }

  lemma {:induction false} ContainsSuffix(s: string, sub: string)
    ensures Contains(s + sub, sub)
    decreases |s|
  {
    if |s| == 0 {
      assert (s + sub)[..|sub|] == sub;
    } else {
      ContainsSuffix(s[1..], sub);
      assert (s + sub)[1..] == s[1..] + sub;
    }
  }

  lemma JoinSnoc(parts: seq<string>, p: string, sep: string)
    requires |parts| > 0
    ensures Join(parts + [p], sep) == Join(parts, sep) + sep + p
  {
    assert (parts + [p])[..|parts|] == parts;
  }
}

=== FILE: tokenizer.dfy ===
/** The flag stripper of cobra.go: one left-to-right scan over the arguments
    that keeps the positional tokens and drops flags and the values of flags
    that take one, knowing flag syntax but not flag values. */
module Tokenizer {
  import opened Text
  import opened FlagSets

  /** `hasNoOptDefVal`: the long flag exists and is boolean-like. */
  function HasNoOptDefVal(name: string, fs: FlagSet): (b: bool)
    ensures b <==> name in fs.formal && fs.formal[name].noOptDefVal != ""
  {
    match Lookup(fs, name)
    case None => false
    case Some(f) => f.noOptDefVal != ""
  }

  /** `shortHasNoOptDefVal`: the flag whose shorthand is the first character
      of `name` exists and is boolean-like; false for an empty name. */
  function ShortHasNoOptDefVal(name: string, fs: FlagSet): (b: bool)
    ensures b <==> |name| > 0 && name[0] in fs.shorthands && fs.shorthands[name[0]].noOptDefVal != ""
  {
    if |name| == 0 then false
    else
      match ShorthandLookup(fs, name[0])
      case None => false
      case Some(f) => f.noOptDefVal != ""
  }

  /** `--name` without `=` whose flag is not known to be boolean-like. */
  predicate LongValueFlag(s: string, fs: FlagSet): (b: bool)
    ensures b <==> && |s| >= 2 && s[0] == '-' && s[1] == '-' && '=' !in s
                   && (s[2..] !in fs.formal || fs.formal[s[2..]].noOptDefVal == "")
  {
    HasPrefix(s, "--") && '=' !in s && !HasNoOptDefVal(s[2..], fs)
  }

  /** `-x` without `=` whose shorthand is not known to be boolean-like. */
  predicate ShortValueFlag(s: string, fs: FlagSet): (b: bool)
    ensures b <==> && |s| == 2 && s[0] == '-' && s[1] != '='
                   && (s[1] !in fs.shorthands || fs.shorthands[s[1]].noOptDefVal == "")
  {
    HasPrefix(s, "-") && '=' !in s && |s| == 2 && !ShortHasNoOptDefVal(s[1..], fs)
  }

  /** A token kept as a positional: non-empty and not starting with `-`. */
  predicate Positional(s: string) {
    s != "" && !HasPrefix(s, "-")
  }

  /** `a` is `b` with some elements removed, the rest kept in order. */
  predicate Subsequence<T(==)>(a: seq<T>, b: seq<T>)
    decreases |b|
  {
    |a| == 0 || (|b| > 0 && ((a[0] == b[0] && Subsequence(a[1..], b[1..])) || Subsequence(a, b[1..])))
  }

  /** `stripFlags`: the positional tokens of `args`, given the flags `fs`.
      A value-taking flag with nothing after it ends the scan. */
  function StripFlags(args: seq<string>, fs: FlagSet): (r: seq<string>)
    decreases |args|
    ensures |args| == 0 ==> r == []
    ensures |r| <= |args|
  {
    if |args| == 0 then []
    else
      var s, rest := args[0], args[1..];
      if s == "--" then []
      else if LongValueFlag(s, fs) || ShortValueFlag(s, fs) then
        if |rest| <= 1 then [] else StripFlags(rest[1..], fs)
      else if Positional(s) then [s] + StripFlags(rest, fs)
      else StripFlags(rest, fs)
  }

  /** What `stripFlags` returns are positional tokens of `args`, in their
      order in `args`. */
  lemma {:induction false} StripFlagsKeepsPositionals(args: seq<string>, fs: FlagSet)
    decreases |args|
    ensures Subsequence(StripFlags(args, fs), args)
    ensures forall i :: 0 <= i < |StripFlags(args, fs)| ==> Positional(StripFlags(args, fs)[i])
  {
    if |args| > 0 {
      var s, rest := args[0], args[1..];
      var r := StripFlags(args, fs);
      if s == "--" {
      } else if LongValueFlag(s, fs) || ShortValueFlag(s, fs) {
        if |rest| > 1 {
          StripFlagsKeepsPositionals(rest[1..], fs);
          SubsequenceSkip(r, rest);
          SubsequenceSkip(r, args);
        }
      } else if Positional(s) {
        StripFlagsKeepsPositionals(rest, fs);
        assert r == [s] + StripFlags(rest, fs);
        assert r[1..] == StripFlags(rest, fs);
      } else {
        StripFlagsKeepsPositionals(rest, fs);
        SubsequenceSkip(r, args);
      }
    }
  }

  /** Dropping the head of `b` keeps `a` a subsequence of `b`. */
  lemma SubsequenceSkip<T>(a: seq<T>, b: seq<T>)
    requires |b| > 0 && Subsequence(a, b[1..])
    ensures Subsequence(a, b)
  {
  }

  /** Everything after `rest`'s first token: what the value-flag branch
      resumes on, whether or not a next token exists. */
  function SkipNext(rest: seq<string>): (r: seq<string>)
    ensures |rest| > 0 ==> r == rest[1..]
    ensures |rest| == 0 ==> r == []
  {
    if |rest| == 0 then [] else rest[1..]
  }

  /** The `len(args) <= 1` break after a value-taking flag is the same as
      skipping the next token if there is one and carrying on. */
  lemma BreakIsSkipNext(s: string, rest: seq<string>, fs: FlagSet)
    requires s != "--" && (LongValueFlag(s, fs) || ShortValueFlag(s, fs))
    ensures StripFlags([s] + rest, fs) == StripFlags(SkipNext(rest), fs)
  {
    assert ([s] + rest)[1..] == rest;
  }

  /** A value-taking flag swallows the next token, whatever it looks like. */
  lemma ValueFlagSwallowsNext(s: string, v: string, rest: seq<string>, fs: FlagSet)
    requires s != "--" && (LongValueFlag(s, fs) || ShortValueFlag(s, fs))
    ensures StripFlags([s, v] + rest, fs) == StripFlags(rest, fs)
    ensures StripFlags([s], fs) == []
  {
    assert ([s, v] + rest)[1..][1..] == rest;
  }

  /** A flag the set does not define is taken to require a value, so an
      unknown `--name` or `-x` swallows its neighbour. */
  lemma UnknownFlagSwallowsNext(s: string, v: string, rest: seq<string>, fs: FlagSet)
    requires HasPrefix(s, "-") && '=' !in s && s != "--"
    requires HasPrefix(s, "--") ==> s[2..] !in fs.formal
    requires !HasPrefix(s, "--") ==> |s| == 2 && s[1] !in fs.shorthands
    ensures StripFlags([s, v] + rest, fs) == StripFlags(rest, fs)
  {
    ValueFlagSwallowsNext(s, v, rest, fs);
  }

  /** Tokens that are flags on their own are dropped without their neighbour:
      `--name=v`, `-x=v`, `-xvalue`, `-`, and boolean-like `--name` / `-x`. */
  lemma SelfContainedFlagDropped(s: string, rest: seq<string>, fs: FlagSet)
    requires HasPrefix(s, "-") && s != "--"
    requires || '=' in s
             || (!HasPrefix(s, "--") && |s| != 2)
             || (HasPrefix(s, "--") && HasNoOptDefVal(s[2..], fs))
             || (|s| == 2 && ShortHasNoOptDefVal(s[1..], fs) && !HasPrefix(s, "--"))
    ensures StripFlags([s] + rest, fs) == StripFlags(rest, fs)
  {
    assert ([s] + rest)[1..] == rest;
  }

  /** A positional token is kept, in place. */
  lemma PositionalKept(s: string, rest: seq<string>, fs: FlagSet)
    requires Positional(s)
    ensures StripFlags([s] + rest, fs) == [s] + StripFlags(rest, fs)
  {
    assert ([s] + rest)[1..] == rest;
  }

  /** A lone `-x` at the end of the list is dropped, whether or not its
      flag takes a value. */
  lemma LoneShortFlagDropped(s: string, fs: FlagSet)
    requires |s| == 2 && s[0] == '-' && s[1] != '-' && s[1] != '='
    ensures StripFlags([s], fs) == []
  {
    assert s[..1] == "-";
    assert !HasPrefix(s, "--");
    if ShortValueFlag(s, fs) {
      ValueFlagSwallowsNext(s, "", [], fs);
    } else {
      SelfContainedFlagDropped(s, [], fs);
      assert [s] + [] == [s];
    }
  }

  /** The scan of `p` ends exactly at the end of `p`: it meets no `--` and
      no value-taking flag of `p` reaches past it for its value. */
  predicate EndsAligned(p: seq<string>, fs: FlagSet)
    decreases |p|
  {
    if |p| == 0 then true
    else if p[0] == "--" then false
    else if LongValueFlag(p[0], fs) || ShortValueFlag(p[0], fs) then |p| >= 2 && EndsAligned(p[2..], fs)
    else EndsAligned(p[1..], fs)
  }

  /** Scanning an aligned prefix and the remainder separately gives the same
      positionals as scanning them together. */
  lemma {:induction false} StripFlagsAppend(p: seq<string>, q: seq<string>, fs: FlagSet)
    requires EndsAligned(p, fs)
    ensures StripFlags(p + q, fs) == StripFlags(p, fs) + StripFlags(q, fs)
    decreases |p|
  {
    if |p| == 0 {
      assert p + q == q;
    } else if LongValueFlag(p[0], fs) || ShortValueFlag(p[0], fs) {
      StripFlagsAppend(p[2..], q, fs);
      assert p == [p[0], p[1]] + p[2..];
      AppendAfterValueFlag(p[0], p[1], p[2..], q, fs);
    } else {
      StripFlagsAppend(p[1..], q, fs);
      assert p == [p[0]] + p[1..];
      if Positional(p[0]) {
        AppendAfterPositional(p[0], p[1..], q, fs);
      } else {
        AppendAfterDropped(p[0], p[1..], q, fs);
      }
    }
  }

  /** The step of `StripFlagsAppend` at a value-taking flag and its value. */
  lemma AppendAfterValueFlag(s: string, v: string, y: seq<string>, q: seq<string>, fs: FlagSet)
    requires s != "--" && (LongValueFlag(s, fs) || ShortValueFlag(s, fs))
    requires StripFlags(y + q, fs) == StripFlags(y, fs) + StripFlags(q, fs)
    ensures StripFlags([s, v] + y + q, fs) == StripFlags([s, v] + y, fs) + StripFlags(q, fs)
  {
    assert [s, v] + y + q == [s, v] + (y + q);
    ValueFlagSwallowsNext(s, v, y + q, fs);
    ValueFlagSwallowsNext(s, v, y, fs);
  }

  /** The step of `StripFlagsAppend` at a positional token, which is kept. */
  lemma AppendAfterPositional(s: string, y: seq<string>, q: seq<string>, fs: FlagSet)
    requires Positional(s)
    requires StripFlags(y + q, fs) == StripFlags(y, fs) + StripFlags(q, fs)
    ensures StripFlags([s] + y + q, fs) == StripFlags([s] + y, fs) + StripFlags(q, fs)
  {
    assert [s] + y + q == [s] + (y + q);
    PositionalKept(s, y + q, fs);
    PositionalKept(s, y, fs);
    assert [s] + (StripFlags(y, fs) + StripFlags(q, fs)) == [s] + StripFlags(y, fs) + StripFlags(q, fs);
  }

  /** The step of `StripFlagsAppend` at a flag that carries no separate
      value, which is dropped. */
  lemma AppendAfterDropped(s: string, y: seq<string>, q: seq<string>, fs: FlagSet)
    requires s != "--" && !LongValueFlag(s, fs) && !ShortValueFlag(s, fs) && !Positional(s)
    requires StripFlags(y + q, fs) == StripFlags(y, fs) + StripFlags(q, fs)
    ensures StripFlags([s] + y + q, fs) == StripFlags([s] + y, fs) + StripFlags(q, fs)
  {
    assert [s] + y + q == [s] + (y + q);
    NonValueStep(s, y + q, fs);
    NonValueStep(s, y, fs);
    assert [] + StripFlags(y + q, fs) == StripFlags(y + q, fs);
    assert [] + StripFlags(y, fs) == StripFlags(y, fs);
  }

  /** A token that is neither `--` nor a value-taking flag is kept if it is
      positional and dropped otherwise; the scan goes on after it. */
  lemma NonValueStep(s: string, rest: seq<string>, fs: FlagSet)
    requires s != "--" && !LongValueFlag(s, fs) && !ShortValueFlag(s, fs)
    ensures StripFlags([s] + rest, fs) == (if Positional(s) then [s] else []) + StripFlags(rest, fs)
  {
    assert ([s] + rest)[1..] == rest;
  }

  /** `--` met by the scan ends it: nothing after it is ever returned. */
  lemma TerminatorEndsScan(p: seq<string>, q: seq<string>, fs: FlagSet)
    requires EndsAligned(p, fs)
    ensures StripFlags(p + ["--"] + q, fs) == StripFlags(p, fs)
  {
    StripFlagsAppend(p, ["--"] + q, fs);
    assert p + ["--"] + q == p + (["--"] + q);
  }

  /** The string flag `name` with shorthand `c`, as `StringP` defines it. */
  function StringFlag(name: string, c: char): Flag {
    Flag(name, [c], "")
  }

  /** `a`, `b` and `c`, the string flags of cobra_test.go. */
  function TestFlags(): FlagSet {
    FlagSet(
      map["test1" := StringFlag("test1", 'a'), "test2" := StringFlag("test2", 'b'), "test3" := StringFlag("test3", 'c')],
      map['a' := StringFlag("test1", 'a'), 'b' := StringFlag("test2", 'b'), 'c' := StringFlag("test3", 'c')])
  }

  /** `-b1` is eaten as `-a`'s value, `-c=1` stands alone. */
  lemma StripFlagsExample()
    ensures StripFlags(["-a", "-b1", "-c=1", "test1", "test2", "test3"], TestFlags()) == ["test1", "test2", "test3"]
  {
    var fs := TestFlags();
    assert ShortValueFlag("-a", fs);
    ValueFlagSwallowsNext("-a", "-b1", ["-c=1", "test1", "test2", "test3"], fs);
    SelfContainedFlagDropped("-c=1", ["test1", "test2", "test3"], fs);
    assert "test1"[..1] == "t" && "test2"[..1] == "t" && "test3"[..1] == "t";
    PositionalKept("test1", ["test2", "test3"], fs);
    PositionalKept("test2", ["test3"], fs);
    PositionalKept("test3", [], fs);
  }

  /** A `--` read as the value of a value-taking flag does not end the scan. */
  lemma TerminatorAsValue()
    ensures StripFlags(["-a", "--", "x"], TestFlags()) == ["x"]
  {
    var fs := TestFlags();
    assert ShortValueFlag("-a", fs);
    ValueFlagSwallowsNext("-a", "--", ["x"], fs);
    assert "x"[..1] == "x";
    PositionalKept("x", [], fs);
  }
}

=== FILE: wrappers.dfy ===
/** Optional values and fallible results shared by the other modules. */
module Wrappers {

  datatype Option<+T> = None | Some(value: T)

  datatype Result<+R, +E> = Success(value: R) | Failure(error: E)
}
